=== FILE: README.md ===
# Gateway event cache and dispatch, modelled in Dafny

This project models the core of a Discord gateway worker library. The model
covers five pieces:

- **Worker.** A worker takes the raw events that a message broker consumer
  delivers. It announces each one on `event:recv` and drops the event types
  on its ignore list. It then passes each remaining event through an
  optional pre-process hook and re-emits the result on `event:dispatch` and
  `discord:<TYPE>`. Two versions exist: the current `src/lib/Worker.js` and
  the older `lib/Worker.js`. The older one reports bad options as
  `OptionsError`s, and it stores the hook but never calls it.
- **Cache connector.** The cache connector (`src/lib/CacheConnector.js`)
  translates each dispatched event into an ordered list of cache actions.
  An action is an upsert or a delete of one entity (channel, guild, member,
  role, presence or user) under a key. The connector keeps the actions whose
  entity type the cache level includes and commits them one at a time to a
  store. The base class's store operations all throw "not implemented".
- **Memory store.** The in-memory store (`src/lib/MemoryCacheConnector.js`)
  is a map from entity type to a map from key to value.
- **REST client.** The model covers the input side of `createMessage` in
  `src/lib/DiscordRestClient.js`:
  - the constructor's checks;
  - the `endpoint` setter's normalisation of the parsed URL;
  - how a message is normalised into the request it sends;
  - how the response status and body decide the result.

JavaScript values are modelled as a `Json` datatype (`js.dfy`), together with:

- truthiness;
- the `null`/`undefined` checks;
- property reads that throw `TypeError` on a nullish value;
- strict-mode property assignment;
- template-literal string conversion.

The modules are:

- `Wrappers`: `Option`, `Result` and `Outcome`.
- `Js`: the JavaScript semantics listed above.
- `MemoryCacheConnector`: the store functions and the `MemoryStore` class.
- `CacheConnector`: translation, cache-level filtering, the commit loop and
  the `Connector` class.
- `MessageBrokerConsumer`: the consumer's `active` flag.
- `Worker` and `LegacyWorker`: the two workers.
- `DiscordRestClient`: the REST client.

Code that updates objects in place is modelled as classes:

- the memory store;
- the connector's `__process` loop, proved against the pure `ProcessEvent`;
- the workers' emission log;
- the REST client's endpoint fields.

Where the workers' doc comments and their code disagree, the model follows
the code:

- The constructor's doc comment gives `verifyData` a default of `true`, but
  the code's `!!options.verifyData` makes it `false` when it is left out.
- The doc comment says the pre-process hook runs before the ignore check,
  but the code returns first for an ignored type and never calls the hook.

The model also keeps the cache connector's inconsistent member keys:
- GUILD_MEMBER_ADD stores a member under the guild id alone.
- GUILD_MEMBER_REMOVE deletes the key `user.id`.
- GUILD_MEMBER_UPDATE and GUILD_MEMBERS_CHUNK use `guild_user`.

Two consequences are proved below:
- Two members added to one guild overwrite each other.
- A member remove never deletes the entry that a member update wrote.

## Model

| member | source | states |
|---|---|---|
| Js.Prop | src/lib/CacheConnector.js:91 | Reading a property fails exactly when the value is null or undefined, and then with a TypeError; otherwise it yields the own field or undefined |
| Js.SetProp | src/lib/CacheConnector.js:153 | In strict mode, assigning a property on a primitive fails with a TypeError; on an object it sets that field and leaves every other field as it was |
| MemoryCacheConnector.Lookup | src/lib/MemoryCacheConnector.js:24-27 | An unknown type or key reads as null; otherwise the read yields the stored value, with a stored falsy value read as null |
| MemoryCacheConnector.AfterWrite | src/lib/MemoryCacheConnector.js:37-40 | Writing adds the type if it is missing, stores the value under the key, and keeps the type's other keys |
| MemoryCacheConnector.AfterDelete | src/lib/MemoryCacheConnector.js:49-52 | Deleting keeps the set of types and removes exactly that key from its type's map |
| MemoryCacheConnector.ReadAfterWrite | src/lib/MemoryCacheConnector.js:37-40 | After a write, reading the same type and key yields the value written (null if it is falsy); every other read is unchanged |
| MemoryCacheConnector.WriteIdempotent | src/lib/MemoryCacheConnector.js:39 | Writing the same value twice has the same effect as writing it once |
| MemoryCacheConnector.ReadAfterDelete | src/lib/MemoryCacheConnector.js:49-52 | After a delete, the deleted key reads as null and every other read is unchanged |
| MemoryCacheConnector.DeleteUnknownType | src/lib/MemoryCacheConnector.js:50 | Deleting under a type that was never written leaves the cache unchanged |
| MemoryCacheConnector.MemoryStore.constructor | src/lib/MemoryCacheConnector.js:12-15 | A new store starts with an empty cache |
| MemoryCacheConnector.MemoryStore.Get | src/lib/MemoryCacheConnector.js:24-27 | `__get` returns the lookup of the current cache and changes nothing |
| MemoryCacheConnector.MemoryStore.Write | src/lib/MemoryCacheConnector.js:37-40 | `__write` updates the cache to its after-write state |
| MemoryCacheConnector.MemoryStore.Delete | src/lib/MemoryCacheConnector.js:49-52 | `__delete` updates the cache to its after-delete state |
| CacheConnector.SelectCacheLevel | src/lib/CacheConnector.js:46-52 | The cache level is the argument when its typeof is 'object' (objects, arrays and null); for any other argument it is the default level |
| CacheConnector.Includes | src/lib/CacheConnector.js:197 | The filter throws exactly when the cache level is nullish; otherwise it keeps an action exactly when the level's plural field for its type is truthy |
| CacheConnector.DefaultCacheLevelIncludes | src/lib/CacheConnector.js:6-14 | The default level caches exactly channels, guilds, members, roles and users, and no other type |
| CacheConnector.PluralInjective | src/lib/CacheConnector.js:197 | Two entity types share a cache-level field only when they are the same type |
| CacheConnector.ChunkActions | src/lib/CacheConnector.js:142-150 | Mapping a member chunk fails exactly when some member is nullish; otherwise it gives one upsert per member, in order, keyed `guild_user` |
| CacheConnector.Translate | src/lib/CacheConnector.js:90-184 | Translating a null event throws a TypeError; every failure is a TypeError; every action names one of the six entity types. Each branch, with its TypeError cases, is pinned down by the per-branch lemmas below |
| CacheConnector.KindOf | src/lib/CacheConnector.js:91-183 | An event type is unhandled exactly when it is not one of the fifteen cases of the switch |
| CacheConnector.UnhandledTypeYieldsNoActions | src/lib/CacheConnector.js:183 | An event whose type is not handled translates to no actions |
| CacheConnector.CreateOrUpdateIsOneUpsert | src/lib/CacheConnector.js:93-100 | The CHANNEL/GUILD create and update events and USER_UPDATE give one upsert of `data` keyed by `data.id`, or a TypeError when `data` is nullish |
| CacheConnector.DeleteIsOneRemove | src/lib/CacheConnector.js:96-102 | CHANNEL_DELETE and GUILD_DELETE give one delete keyed by `data.id`, or a TypeError when `data` is nullish |
| CacheConnector.MemberAddAndRemoveKeys | src/lib/CacheConnector.js:103-111 | A member add upserts `data` under `data.guild_id`; a member remove deletes under `user.id`; both throw a TypeError on nullish `data`, and the remove also on a nullish `user`; neither uses the `guild_user` key |
| CacheConnector.UpdatedMemberFields | src/lib/CacheConnector.js:119-141 | The rebuilt member takes guild, user, roles and nick from the event; with no prior member it gets the epoch `joined_at` and false `deaf`/`mute`, and otherwise keeps the prior member's values |
| CacheConnector.MemberUpdateRebuildsMember | src/lib/CacheConnector.js:112-141 | GUILD_MEMBER_UPDATE throws a TypeError exactly when `data` or `data.user` is nullish, and otherwise gives exactly one upsert of the rebuilt member under `guild_user` |
| CacheConnector.MembersChunkOneUpsertPerMember | src/lib/CacheConnector.js:142-150 | GUILD_MEMBERS_CHUNK throws a TypeError when `members` is not an array (missing data included); for an array it fails exactly when a member is nullish; otherwise it gives one upsert per member, in order, with the member as value |
| CacheConnector.RoleUpsertInjectsGuildId | src/lib/CacheConnector.js:151-159 | Role create and update fail with a TypeError on a primitive role. Otherwise they upsert the whole event data under `role.id`, with `role.guild_id` set to the event's `guild_id` |
| CacheConnector.RoleDeleteIsOneRemove | src/lib/CacheConnector.js:160-161 | GUILD_ROLE_DELETE throws a TypeError on nullish `data` and otherwise gives one delete keyed by `data.role_id` |
| CacheConnector.PresenceKeepsOnlyUserId | src/lib/CacheConnector.js:164-171 | PRESENCE_UPDATE throws a TypeError when `data` or `data.user` is nullish; otherwise it upserts under `guild_user` the event data, with `user` replaced by an object holding only the id |
| CacheConnector.EntitiesHaveDefaultLevel | src/lib/CacheConnector.js:6-14 | Every entity type that the translation can produce has a field in the default cache level |
| CacheConnector.Included | src/lib/CacheConnector.js:197 | The filtered list holds exactly the actions whose type the level includes |
| CacheConnector.CommitAll | src/lib/CacheConnector.js:196-206 | A nullish level throws a TypeError on the first action; the base class's store is never replaced; a memory store with a non-null level always completes; a failure is a TypeError or "not implemented". CommitIsFilterThenApply and FailedCommitStopsAfterPrefix relate it to the filter and to the order of writes |
| CacheConnector.CommitIsFilterThenApply | src/lib/CacheConnector.js:196-206 | With a non-nullish level, committing is the same as filtering first and then applying the kept actions in order |
| CacheConnector.ApplyAllInMemory | src/lib/CacheConnector.js:198-205 | On the memory store, applying actions always succeeds and gives the replay of those writes and deletes |
| CacheConnector.UnimplementedStoreCommitsNothing | src/lib/CacheConnector.js:232-249 | On the base class, a commit passes only when no action is included; otherwise it throws "not implemented" from `__write` or `__delete`, depending on the first kept action |
| CacheConnector.CommitAllAppend | src/lib/CacheConnector.js:196-206 | Committing `xs + ys` commits `ys` on the store that `xs` left, and only when `xs` completed |
| CacheConnector.FailedCommitStopsAfterPrefix | src/lib/CacheConnector.js:196-206 | A failed commit leaves exactly the effect of a completed prefix, and the failing action is the next one: nothing after it is attempted |
| CacheConnector.PrefixAfterSkipped | src/lib/CacheConnector.js:196-206 | The same stop-at-the-first-failure property, when the level skips the first action |
| CacheConnector.PriorMember | src/lib/CacheConnector.js:112-117 | The store is read only for GUILD_MEMBER_UPDATE, under `guild_user`; the base class's throwing lookup gives null; the result is null or a truthy stored member |
| CacheConnector.ProcessEvent | src/lib/CacheConnector.js:191-207 | A failed translation throws a TypeError and leaves the store as it was; on a memory store with a non-null level, processing completes exactly when translation does; the base class's store is never replaced. `Connector.Process` is proved equal to it |
| CacheConnector.Connector.constructor | src/lib/CacheConnector.js:46-52 | The connector holds the selected cache level and its store |
| CacheConnector.Connector.Get | src/lib/CacheConnector.js:218-222 | `__get` reads the memory store, or throws "not implemented" in the base class |
| CacheConnector.Connector.Commit | src/lib/CacheConnector.js:198-205 | One action is written or deleted in the store, or, in the base class, throws and leaves the store unchanged |
| CacheConnector.Connector.ParseEvent | src/lib/CacheConnector.js:112-117 | Parsing translates the event against the member currently stored; a lookup that throws counts as no member |
| CacheConnector.Connector.Process | src/lib/CacheConnector.js:191-207 | The loop leaves the store and the outcome exactly as the pure `ProcessEvent` specifies: translate, filter, then commit in order, stopping at the first failure |
| CacheConnector.UnhandledEventCommitsNothing | src/lib/CacheConnector.js:183 | Processing an unhandled event type succeeds and leaves the store unchanged |
| CacheConnector.ProcessSingleAction | src/lib/CacheConnector.js:196-206 | An event that translates to one included action whose application succeeds leaves the store in that action's after-state |
| CacheConnector.GuildCreateThenDelete | src/lib/CacheConnector.js:98-102 | When guilds are cached, GUILD_CREATE stores the guild under its id, GUILD_DELETE then reads it back as null, and every other entry is as before |
| CacheConnector.IncludedKeepsAll | src/lib/CacheConnector.js:197 | When the level includes every action, filtering keeps the whole list in order |
| CacheConnector.IncludedDropsAll | src/lib/CacheConnector.js:197 | When the level includes no action, filtering keeps nothing |
| CacheConnector.ExcludedActionsCommitNothing | src/lib/CacheConnector.js:197 | An event whose actions are all excluded by the level succeeds without touching the store |
| CacheConnector.ReplayFrame | src/lib/MemoryCacheConnector.js:37-52 | Writes and deletes under other (type, key) pairs do not change a lookup |
| CacheConnector.ReplayUpsertsReadBack | src/lib/MemoryCacheConnector.js:37-40 | After upserts of truthy values under distinct (type, key) pairs, each one reads back its own value |
| CacheConnector.MembersChunkCachesEveryMember | src/lib/CacheConnector.js:142-150 | When members are cached, a chunk of truthy members with distinct ids succeeds and each member reads back under `guild_user` |
| CacheConnector.CommitIncludedInMemory | src/lib/CacheConnector.js:196-206 | Committing included actions to the memory store succeeds and gives their replay |
| CacheConnector.MemberUpdateWithoutStoredMember | src/lib/CacheConnector.js:113-126 | A member update that finds no stored member, or whose lookup throws, stores the epoch `joined_at` and false `deaf`/`mute` |
| CacheConnector.CompositeKeyIsNotAnId | src/lib/CacheConnector.js:111-113 | A `guild_user` key never equals the bare id it is built from, so the remove key and the update key of a member always differ |
| CacheConnector.MemberAddsInOneGuildOverwrite | src/lib/CacheConnector.js:103-109 | When members are cached, adding a member stores it under the guild id. Adding a second member to the same guild replaces the first one there |
| CacheConnector.MemberRemoveKeepsUpdatedMember | src/lib/CacheConnector.js:110-141 | When members are cached, a GUILD_MEMBER_REMOVE for the member that a GUILD_MEMBER_UPDATE just stored completes but leaves the rebuilt member readable under `guild_user` |
| MessageBrokerConsumer.Consumer.constructor | src/lib/MessageBrokerConsumer.js:20 | A consumer carries the `active` flag that the worker reads |
| Worker.CheckOptions | src/lib/Worker.js:56-74 | The worker rejects, in this order, a non-consumer, a truthy non-array `ignoredEvents` and a truthy non-function hook; it accepts exactly the other options and stores the consumer, the ignore list (empty when falsy), the hook and `!!verifyData` |
| Worker.OmittedOptionsDefaults | src/lib/Worker.js:62-74 | With the optional options left out, the worker ignores nothing, has no hook and has `verifyData` false |
| Worker.Receive | src/lib/Worker.js:117-136 | `event:recv` always comes first; a null event throws TypeError; an ignored type stops there; otherwise the event, or the hook's truthy result, is emitted on `event:dispatch` and then on `discord:<type>` |
| Worker.HookNotCalledForIgnored | src/lib/Worker.js:121 | For an ignored type the hook is never consulted: any hook gives the same emissions as no hook |
| Worker.IdentityHookIsNoHook | src/lib/Worker.js:126-135 | An identity hook matches having no hook on truthy events; on falsy ones it drops the event, which no hook would dispatch |
| Worker.DiscordChannelFollowsHookResult | src/lib/Worker.js:127-131 | The `discord:` channel is named after the type of the hook's result, not of the raw event |
| Worker.Worker.constructor | src/lib/Worker.js:61-74 | A new worker holds the accepted settings and has emitted nothing |
| Worker.Worker.Create | src/lib/Worker.js:53-78 | Construction fails exactly as the option checks fail, with the same error; on success the new worker holds the checked settings |
| Worker.Worker.Consuming | src/lib/Worker.js:83-85 | `consuming` is the consumer's `active` flag |
| Worker.Worker.StartConsuming | src/lib/Worker.js:94-99 | Starting an active consumer throws "already active"; otherwise the outcome is the consumer's own start |
| Worker.Worker.StopConsuming | src/lib/Worker.js:106-111 | Stopping an inactive consumer throws "not active"; otherwise the outcome is the consumer's own stop |
| Worker.Worker.Emit | src/lib/Worker.js:118 | An emission is appended to the log and nothing else changes |
| Worker.Worker.ReceiveEvent | src/lib/Worker.js:117-136 | Receiving an event appends exactly the emissions of `Receive` to the log and ends with its outcome |
| LegacyWorker.CheckOptions | lib/Worker.js:50-68 | The older worker makes the same checks in the same order, reporting each as an `OptionsError` that names the key |
| LegacyWorker.ConsumerOptionMessage | lib/Worker.js:50-54 | A non-consumer is rejected with the message `bad option "messageBrokerConsumer": not instance of MessageBrokerConsumer` |
| LegacyWorker.IgnoredEventsOptionMessage | lib/Worker.js:56-59 | A truthy non-array ignore list is rejected with the message `bad option "ignoredEvents": not an array` |
| LegacyWorker.HookOptionMessage | lib/Worker.js:62-65 | A truthy non-function hook is rejected with the message `bad option "preEventProcessHook": not a function` |
| LegacyWorker.SameOptionsAsWorker | lib/Worker.js:50-68 | Both workers accept the same options with the same settings, and each rejected key corresponds to the newer worker's message |
| LegacyWorker.Receive | lib/Worker.js:116-128 | The older receive emits `event:recv`, throws on null, stops on an ignored type and otherwise dispatches the raw event |
| LegacyWorker.ReceiveIsWorkerWithoutHook | lib/Worker.js:116-128 | The older receive equals the newer one with no hook, whatever hook was configured |
| LegacyWorker.Worker.constructor | lib/Worker.js:55-68 | A new legacy worker holds the accepted settings and has emitted nothing |
| LegacyWorker.Worker.Create | lib/Worker.js:47-72 | Construction fails exactly as the legacy option checks fail; on success the worker holds the checked settings |
| LegacyWorker.Worker.Consuming | lib/Worker.js:77-79 | `consuming` is the consumer's `active` flag |
| LegacyWorker.Worker.StartConsuming | lib/Worker.js:88-95 | Starting rejects with "already active" when the consumer is active; otherwise it settles as the consumer's start |
| LegacyWorker.Worker.StopConsuming | lib/Worker.js:103-110 | Stopping rejects with "not active" when the consumer is inactive; otherwise it settles as the consumer's stop |
| LegacyWorker.Worker.Emit | lib/Worker.js:117 | An emission is appended to the log and nothing else changes |
| LegacyWorker.Worker.ReceiveEvent | lib/Worker.js:116-128 | Receiving appends exactly the older `Receive` emissions, without ever calling the stored hook |
| DiscordRestClient.NormalisePathname | src/lib/DiscordRestClient.js:48-54 | A one-character pathname becomes empty; otherwise one trailing slash is dropped and any other pathname is kept |
| DiscordRestClient.NormalisePathnameDropsOneSlash | src/lib/DiscordRestClient.js:51-54 | The normalised pathname is a prefix of the original, at most one character shorter, and ends in a slash only when the original ended in two |
| DiscordRestClient.TrailingSlashDoesNotChangePaths | src/lib/DiscordRestClient.js:73 | For a pathname that is empty or at least two characters long (and not ending in a slash), adding a trailing slash gives the same request path for every route. A one-character pathname is excluded because the setter empties it |
| DiscordRestClient.ParseEndpoint | src/lib/DiscordRestClient.js:43-56 | Setting the endpoint fails with a TypeError exactly when the value is not a string or has no pathname; otherwise `secure` means the https protocol and the pathname is normalised |
| DiscordRestClient.CheckClientOptions | src/lib/DiscordRestClient.js:20-31 | A non-string token is rejected; a non-string endpoint falls back to the default; `enableRatelimits` is its truthiness |
| DiscordRestClient.OmittedClientOptionsDefaults | src/lib/DiscordRestClient.js:26-30 | With only a token, the client uses the default endpoint and has ratelimits disabled |
| DiscordRestClient.TextOf | src/lib/DiscordRestClient.js:143-149 | A string text is kept, undefined becomes the empty string, and any other value is converted to its string form |
| DiscordRestClient.EmbedOf | src/lib/DiscordRestClient.js:150-152 | The embed is kept when it is an object and otherwise becomes null |
| DiscordRestClient.UploadOf | src/lib/DiscordRestClient.js:153-170 | There is an upload exactly when `file` is an object; a string source becomes a read stream, and a missing or empty filename becomes "upload" |
| DiscordRestClient.StringContentIsText | src/lib/DiscordRestClient.js:132-134 | A string message is text only, with no embed or file, and has a body exactly when it is non-empty |
| DiscordRestClient.NonStringTextIsStringified | src/lib/DiscordRestClient.js:143-149 | Numeric text becomes its decimal form and null becomes "null" |
| DiscordRestClient.NormaliseText | src/lib/DiscordRestClient.js:143-149 | The text after normalisation is always a string, namely `TextOf` |
| DiscordRestClient.NormaliseFile | src/lib/DiscordRestClient.js:153-170 | The file after normalisation is `UploadOf` |
| DiscordRestClient.BuildPayload | src/lib/DiscordRestClient.js:179-182 | The payload has `content`, `embed` and `tts` exactly when the text, the embed and tts are truthy, each with its own value (tts is `true`), and no other key |
| DiscordRestClient.StatusError | src/lib/DiscordRestClient.js:210-222 | The status error names the status; it quotes `code: message` when the body has both, and otherwise says there is no error object |
| DiscordRestClient.CheckResponse | src/lib/DiscordRestClient.js:208-223 | The call succeeds with the parsed body exactly when the body parses and the status is 200; otherwise it fails with a SyntaxError (unparsable body), a TypeError (primitive body) or the status error |
| DiscordRestClient.RestClient.constructor | src/lib/DiscordRestClient.js:24-30 | The client holds the checked token, the endpoint, its parsed form and the ratelimit flag |
| DiscordRestClient.RestClient.Create | src/lib/DiscordRestClient.js:20-31 | Construction fails exactly as the option checks fail; on success the client holds the checked settings |
| DiscordRestClient.RestClient.SetEndpoint | src/lib/DiscordRestClient.js:43-56 | The raw endpoint is always stored; the parsed endpoint is replaced only when parsing succeeds, and otherwise the setter throws |
| DiscordRestClient.RestClient.CreateMessage | src/lib/DiscordRestClient.js:127-182 | The request fails on a non-string channel id, on non-object content or on content with no text, embed or file. Otherwise it carries the token, the path (the endpoint pathname + `/channels/<id>/messages`), the normalised upload and exactly the truthy payload fields |

## Left out

- Listener registration (`attach`/`detach` and the worker's `on('message')`): only the work done per event is modelled.
- Promise scheduling and interleaving: each asynchronous step completes before the next one starts, and the hook's promise resolves at once.
- A pre-process hook that rejects or throws: the hook is a total function from the event to a value.
- Numbers: they are unbounded integers only, with no floating point, NaN or negative zero. Integers above 2^53, which a JavaScript number cannot hold exactly, are not rounded.
- Js.ToStr: it always prints a number in plain decimal. JavaScript prints an integer of magnitude 10^21 or more in exponent form (`1e+21`). On such numbers, string conversion therefore differs from the source. This affects `'' + content` in DiscordRestClient.NonStringTextIsStringified, the `guild_user` keys of CacheConnector.CompositeKey and the `discord:${type}` channel name. It also renders every object as `[object Object]`. An object with an own `toString` or `valueOf` field is therefore not handled as JavaScript handles it: a non-callable `toString` together with the inherited `valueOf` makes JavaScript's conversion throw a TypeError. Such objects occur in the keys at src/lib/CacheConnector.js:113, 146 and 168, in the text at src/lib/DiscordRestClient.js:148 and in the channel names at src/lib/Worker.js:130 and 134. There the source throws, while the model produces a string.
- DiscordRestClient.NormalisePathname: it counts characters, while `pathname.length` counts UTF-16 code units. A one-character pathname outside the Basic Multilingual Plane has length 2 in JavaScript and is not emptied there, but it is emptied here.
- DiscordRestClient.CheckClientOptions: does not model an options argument that is itself undefined or null, where the constructor's destructuring throws a TypeError.
- Object identity: map keys and the ignore-list `includes` compare values structurally, so two distinct objects with equal contents count as equal.
- In-place mutation of `e.data`, `content` and `options`, and any aliasing it causes: the model builds new values instead.
- Named properties on arrays, built-in properties of primitives (such as a string's `length`) and names inherited from a prototype.
- `url.parse` is a parameter (`urlParse`); the parts of the URL object other than protocol, hostname, port and pathname are not modelled.
- JSON.parse of the response body appears only as an `Option<Json>` (no parse is a SyntaxError); JSON.stringify and `encodeURIComponent` of the payload are not modelled.
- makeRequest, collectResponse and FormData are not modelled (`CreateMessage` returns the request it would send), and neither are the other REST methods.
- fs: a string file source becomes `ReadStream(path)` and is not opened.
- DiscordRestClient.UploadOf: does not model the filename `replace`, whose result the source discards. It also does not model the Buffer/stream check, which is always true as written.
- The `verifyData` option is stored but has no effect anywhere in the code.
- RedisCacheConnector, the STOMP consumer, RavenWorker and `lib/CacheConnector.js` are not part of this model.
- MessageBrokerConsumer: only its `active` flag is modelled. The worker is given the outcome of the consumer's `start()`/`stop()`, and what those calls do to `active` is not modelled.
- Worker.CheckOptions: does not model an `options` argument that is itself undefined or null, where the source's property read `options.messageBrokerConsumer` throws a TypeError (src/lib/Worker.js:56).
- LegacyWorker.CheckOptions: likewise does not model an undefined or null `options`, where the same property read throws a TypeError (lib/Worker.js:50).
- CacheConnector.Connector.Get: the "not implemented" message names `CacheConnector`, the base class; the runtime `constructor.name` of a subclass is not modelled.
- CacheConnector.Connector.Process: it is proved for the base class and the memory store only; stores in other subclasses are not modelled.

=== FILE: cache_connector.dfy ===
/**
 * The cache connector: it translates a dispatched gateway event into an
 * ordered list of cache actions, keeps the actions whose entity type the
 * cache level includes, and commits them one after the other to the store.
 */
module CacheConnector {
  import opened Wrappers
  import opened Js
  import opened MemoryCacheConnector

  /** `{action: 0, type, key, value}` (create or replace) and
      `{action: 1, type, key}` (delete, which carries no value). */
  datatype Action =
    | Upsert(entity: string, key: Json, value: Json)
    | Remove(entity: string, key: Json)

  // ---------------------------------------------------------------------------
  // Cache level

  /** `defaultCacheLevel`: everything but messages and presences is cached. */
  const DefaultCacheLevel: Json := Obj(map[
    "channels" := Bool(true),
    "guilds" := Bool(true),
    "members" := Bool(true),
    "messages" := Bool(false),
    "presences" := Bool(false),
    "roles" := Bool(true),
    "users" := Bool(true)
  ])

  /** The constructor keeps any argument whose `typeof` is 'object' (null and
      arrays included) and falls back to the default for everything else. */
  function SelectCacheLevel(arg: Json): (r: Json)
    ensures arg.Obj? || arg.Arr? || arg.Null? ==> r == arg
    ensures arg.Undefined? || arg.Bool? || arg.Num? || arg.Str? ==> r == DefaultCacheLevel
  {
    if IsObject(arg) || arg.Null? then arg else DefaultCacheLevel
  }

  /** `!!this._cacheLevel[type + 's']`; throws when the cache level is null. */
  function Includes(level: Json, entity: string): (r: Result<bool, JsError>)
    ensures r.Failure? <==> IsNullish(level)
    ensures r.Success? ==> (r.value <==> Truthy(Attr(level, entity + "s")))
  {
    var flag :- Prop(level, entity + "s");
    Success(Truthy(flag))
  }

  /** The default level caches channels, guilds, members, roles and users, and
      excludes messages, presences and every type it does not name. */
  lemma DefaultCacheLevelIncludes(entity: string)
    ensures Includes(DefaultCacheLevel, entity) ==
      Success(entity in {"channel", "guild", "member", "role", "user"})
  {
    forall name | name in {"channel", "guild", "member", "message", "presence", "role", "user"}
      ensures entity + "s" == name + "s" <==> entity == name
    {
      PluralInjective(entity, name);
    }
    assert "channels" == "channel" + "s" && "guilds" == "guild" + "s" && "members" == "member" + "s";
    assert "messages" == "message" + "s" && "presences" == "presence" + "s";
    assert "roles" == "role" + "s" && "users" == "user" + "s";
  }

  /** Two types have the same policy key only if they are the same type. */
  lemma PluralInjective(a: string, b: string)
    ensures a + "s" == b + "s" <==> a == b
  {
    if a + "s" == b + "s" {
      assert |a| == |b|;
      assert a == (a + "s")[..|a|] == (b + "s")[..|b|] == b;
    }
  }

  // ---------------------------------------------------------------------------
  // Event translation (`__parseEvent`)

  /** The `joined_at` of the stand-in member built when no stored member exists. */
  const EpochJoinedAt := "1970-01-01T00:00:00.000000+00:00"

  /** The stand-in for a missing stored member in GUILD_MEMBER_UPDATE. */
  const PlaceholderMember: Json := Obj(map[
    "joined_at" := Str(EpochJoinedAt),
    "deaf" := Bool(false),
    "mute" := Bool(false)
  ])

  /** The event types `__parseEvent` turns into actions. */
  const HandledTypes: set<string> := {
    "CHANNEL_CREATE", "CHANNEL_UPDATE", "CHANNEL_DELETE",
    "GUILD_CREATE", "GUILD_UPDATE", "GUILD_DELETE",
    "GUILD_MEMBER_ADD", "GUILD_MEMBER_REMOVE", "GUILD_MEMBER_UPDATE",
    "GUILD_MEMBERS_CHUNK",
    "GUILD_ROLE_CREATE", "GUILD_ROLE_UPDATE", "GUILD_ROLE_DELETE",
    "PRESENCE_UPDATE", "USER_UPDATE"
  }

  /** The entity types the actions carry. */
  const Entities: set<string> := {"channel", "guild", "member", "role", "presence", "user"}

  /** `` `${guildId}_${id}` `` */
  function CompositeKey(guildId: Json, id: Json): Json {
    Str(ToStr(guildId) + "_" + ToStr(id))
  }

  /** `` `${e.data.guild_id}_${e.data.user.id}` ``, the key of a guild member. */
  function MemberUpdateKey(data: Json): Result<Json, JsError> {
    var guildId :- Prop(data, "guild_id");
    var userId :- Prop(Attr(data, "user"), "id");
    Success(CompositeKey(guildId, userId))
  }

  function UpsertById(e: Json, entity: string): Result<seq<Action>, JsError> {
    var data :- Prop(e, "data");
    var id :- Prop(data, "id");
    Success([Upsert(entity, id, data)])
  }

  function RemoveById(e: Json, entity: string): Result<seq<Action>, JsError> {
    var data :- Prop(e, "data");
    var id :- Prop(data, "id");
    Success([Remove(entity, id)])
  }

  function MemberAdd(e: Json): Result<seq<Action>, JsError> {
    var data :- Prop(e, "data");
    var guildId :- Prop(data, "guild_id");
    Success([Upsert("member", guildId, data)])
  }

  function MemberRemove(e: Json): Result<seq<Action>, JsError> {
    var data :- Prop(e, "data");
    var user :- Prop(data, "user");
    var userId :- Prop(user, "id");
    Success([Remove("member", userId)])
  }

  /** The member document GUILD_MEMBER_UPDATE stores: the event's fields, and
      `joined_at`/`deaf`/`mute` from the stored member or the placeholder. */
  function UpdatedMember(data: Json, prior: Json): Json {
    var previous := if Truthy(prior) then prior else PlaceholderMember;
    Obj(map[
      "guild_id" := Attr(data, "guild_id"),
      "user" := Attr(data, "user"),
      "roles" := Attr(data, "roles"),
      "nick" := Attr(data, "nick"),
      "joined_at" := Attr(previous, "joined_at"),
      "deaf" := Attr(previous, "deaf"),
      "mute" := Attr(previous, "mute")
    ])
  }

  function MemberUpdate(e: Json, prior: Json): Result<seq<Action>, JsError> {
    var data :- Prop(e, "data");
    var key :- MemberUpdateKey(data);
    Success([Upsert("member", key, UpdatedMember(data, prior))])
  }

  /** `members.map(m => ({action: 0, key: `${guild_id}_${m.id}`, type: 'member', value: m}))` */
  function ChunkActions(guildId: Json, members: seq<Json>): (r: Result<seq<Action>, JsError>)
    ensures r.Failure? <==> exists i :: 0 <= i < |members| && IsNullish(members[i])
    ensures r.Success? ==> |r.value| == |members|
    ensures r.Success? ==> forall i :: 0 <= i < |members| ==>
      r.value[i] == Upsert("member", CompositeKey(guildId, Attr(members[i], "id")), members[i])
    ensures r.Success? ==> forall a :: a in r.value ==> a.entity == "member"
    ensures r.Failure? ==> r.error == TypeError
    decreases |members|
  {
    if members == [] then Success([])
    else
      var id :- Prop(members[0], "id");
      var rest :- ChunkActions(guildId, members[1..]);
      Success([Upsert("member", CompositeKey(guildId, id), members[0])] + rest)
  }

  function MembersChunk(e: Json): Result<seq<Action>, JsError> {
    var data :- Prop(e, "data");
    var members :- Prop(data, "members");
    if !members.Arr? then Failure(TypeError) // `members.map` is not a function
    else ChunkActions(Attr(data, "guild_id"), members.items)
  }

  /** `e.data.role.guild_id = e.data.guild_id`, then one upsert of the whole `data`. */
  function RoleUpsert(e: Json): Result<seq<Action>, JsError> {
    var data :- Prop(e, "data");
    var role :- Prop(data, "role");
    var role' :- SetProp(role, "guild_id", Attr(data, "guild_id"));
    // `role` is an object, so `data` is one too and keeps the updated role
    Success([Upsert("role", Attr(role', "id"), Assigned(data, "role", role'))])
  }

  function RoleRemove(e: Json): Result<seq<Action>, JsError> {
    var data :- Prop(e, "data");
    var roleId :- Prop(data, "role_id");
    Success([Remove("role", roleId)])
  }

  /** `e.data.user = {id: e.data.user.id}`, then one upsert keyed by guild and user. */
  function PresenceUpsert(e: Json): Result<seq<Action>, JsError> {
    var data :- Prop(e, "data");
    var user :- Prop(data, "user");
    var userId :- Prop(user, "id");
    // `data.user` is not null, so `data` is an object and takes the new user
    var data' := Assigned(data, "user", Obj(map["id" := userId]));
    Success([Upsert("presence", CompositeKey(Attr(data', "guild_id"), userId), data')])
  }

  /** The branch of `__parseEvent`'s switch an event type selects. */
  datatype EventKind =
    | UpsertedById(entity: string)
    | RemovedById(entity: string)
    | MemberAdded
    | MemberRemoved
    | MemberUpdated
    | MembersChunked
    | RoleUpserted
    | RoleRemoved
    | PresenceUpdated
    | Unhandled

  function KindOf(t: string): (k: EventKind)
    ensures k.Unhandled? <==> t !in HandledTypes
  {
    match t
    case "CHANNEL_CREATE" => UpsertedById("channel")
    case "CHANNEL_UPDATE" => UpsertedById("channel")
    case "CHANNEL_DELETE" => RemovedById("channel")
    case "GUILD_CREATE" => UpsertedById("guild")
    case "GUILD_UPDATE" => UpsertedById("guild")
    case "GUILD_DELETE" => RemovedById("guild")
    case "GUILD_MEMBER_ADD" => MemberAdded
    case "GUILD_MEMBER_REMOVE" => MemberRemoved
    case "GUILD_MEMBER_UPDATE" => MemberUpdated
    case "GUILD_MEMBERS_CHUNK" => MembersChunked
    case "GUILD_ROLE_CREATE" => RoleUpserted
    case "GUILD_ROLE_UPDATE" => RoleUpserted
    case "GUILD_ROLE_DELETE" => RoleRemoved
    case "PRESENCE_UPDATE" => PresenceUpdated
    case "USER_UPDATE" => UpsertedById("user")
    case _ => Unhandled
  }

  /** `__parseEvent(e)`, given `prior`, what the store lookup of a
      GUILD_MEMBER_UPDATE produced (null when it failed). */
  function Translate(e: Json, prior: Json): (r: Result<seq<Action>, JsError>)
    ensures IsNullish(e) ==> r == Failure(TypeError)
    ensures r.Failure? ==> r.error == TypeError
    ensures r.Success? ==> forall a :: a in r.value ==> a.entity in Entities
  {
    var t :- Prop(e, "type");
    if !t.Str? then Success([])
    else match KindOf(t.s)
      case UpsertedById(entity) => UpsertById(e, entity)
      case RemovedById(entity) => RemoveById(e, entity)
      case MemberAdded => MemberAdd(e)
      case MemberRemoved => MemberRemove(e)
      case MemberUpdated => MemberUpdate(e, prior)
      case MembersChunked => MembersChunk(e)
      case RoleUpserted => RoleUpsert(e)
      case RoleRemoved => RoleRemove(e)
      case PresenceUpdated => PresenceUpsert(e)
      case Unhandled => Success([])
  }

  // ---------------------------------------------------------------------------
  // Properties of the translation

  /** An event whose type is not one `__parseEvent` handles yields no actions. */
  lemma UnhandledTypeYieldsNoActions(e: Json, prior: Json)
    requires !IsNullish(e)
    requires !(Attr(e, "type").Str? && Attr(e, "type").s in HandledTypes)
    ensures Translate(e, prior) == Success([])
  {
  }

  /** A channel, guild or user create/update yields one upsert keyed by
      `data.id` whose value is `data` itself; missing data throws. */
  lemma CreateOrUpdateIsOneUpsert(e: Json, prior: Json, t: string)
    requires Prop(e, "type") == Success(Str(t))
    requires t in {"CHANNEL_CREATE", "CHANNEL_UPDATE", "GUILD_CREATE", "GUILD_UPDATE", "USER_UPDATE"}
    ensures var data := Attr(e, "data");
      var entity :=
        if t in {"CHANNEL_CREATE", "CHANNEL_UPDATE"} then "channel"
        else if t in {"GUILD_CREATE", "GUILD_UPDATE"} then "guild"
        else "user";
      Translate(e, prior) ==
        if IsNullish(data) then Failure(TypeError)
        else Success([Upsert(entity, Attr(data, "id"), data)])
  {
  }

  /** A channel or guild delete yields one value-less delete keyed by `data.id`. */
  lemma DeleteIsOneRemove(e: Json, prior: Json, t: string)
    requires Prop(e, "type") == Success(Str(t))
    requires t in {"CHANNEL_DELETE", "GUILD_DELETE"}
    ensures var data := Attr(e, "data");
      var entity := if t == "CHANNEL_DELETE" then "channel" else "guild";
      Translate(e, prior) ==
        if IsNullish(data) then Failure(TypeError)
        else Success([Remove(entity, Attr(data, "id"))])
  {
  }

  /** GUILD_MEMBER_ADD is keyed by the guild id, GUILD_MEMBER_REMOVE deletes the
      key `user.id`: neither uses the `guild_user` key of the other member events.
      Missing data, or a missing user on a remove, throws. */
  lemma MemberAddAndRemoveKeys(e: Json, prior: Json)
    ensures var data := Attr(e, "data");
      Prop(e, "type") == Success(Str("GUILD_MEMBER_ADD")) ==>
        Translate(e, prior) ==
          if IsNullish(data) then Failure(TypeError)
          else Success([Upsert("member", Attr(data, "guild_id"), data)])
    ensures var data := Attr(e, "data");
      Prop(e, "type") == Success(Str("GUILD_MEMBER_REMOVE")) ==>
        Translate(e, prior) ==
          if IsNullish(data) || IsNullish(Attr(data, "user")) then Failure(TypeError)
          else Success([Remove("member", Attr(Attr(data, "user"), "id"))])
  {
  }

  /** The rebuilt member takes guild, user, roles and nick from the event, and
      `joined_at`, `deaf` and `mute` from the stored member, or the epoch
      timestamp and false, false when nothing truthy was stored. */
  lemma UpdatedMemberFields(data: Json, prior: Json)
    ensures var v := UpdatedMember(data, prior);
      && (forall f :: f in {"guild_id", "user", "roles", "nick"} ==> Attr(v, f) == Attr(data, f))
      && (!Truthy(prior) ==>
            Attr(v, "joined_at") == Str("1970-01-01T00:00:00.000000+00:00")
            && Attr(v, "deaf") == Bool(false) && Attr(v, "mute") == Bool(false))
      && (Truthy(prior) ==>
            forall f :: f in {"joined_at", "deaf", "mute"} ==> Attr(v, f) == Attr(prior, f))
  {
  }

  /** GUILD_MEMBER_UPDATE yields one upsert of the rebuilt member, keyed
      `guild_id + "_" + user.id`; missing data or a missing user throws. */
  lemma MemberUpdateRebuildsMember(e: Json, prior: Json)
    requires Prop(e, "type") == Success(Str("GUILD_MEMBER_UPDATE"))
    ensures var data := Attr(e, "data");
      Translate(e, prior) ==
        if IsNullish(data) || IsNullish(Attr(data, "user")) then Failure(TypeError)
        else Success([Upsert("member",
          Str(ToStr(Attr(data, "guild_id")) + "_" + ToStr(Attr(Attr(data, "user"), "id"))),
          UpdatedMember(data, prior))])
  {
  }

  /** GUILD_MEMBERS_CHUNK yields one upsert per member, in order, keyed
      `guild_id + "_" + m.id` with the member as value; a null member throws,
      and so does a `members` that is not an array (or missing data). */
  lemma MembersChunkOneUpsertPerMember(e: Json, prior: Json, members: seq<Json>)
    requires Prop(e, "type") == Success(Str("GUILD_MEMBERS_CHUNK"))
    ensures !Attr(Attr(e, "data"), "members").Arr? ==> Translate(e, prior) == Failure(TypeError)
    ensures Attr(Attr(e, "data"), "members") == Arr(members) ==>
      var guildId := Attr(Attr(e, "data"), "guild_id");
      var r := Translate(e, prior);
      && (r.Failure? <==> exists i :: 0 <= i < |members| && IsNullish(members[i]))
      && (r.Success? ==> |r.value| == |members| && forall i :: 0 <= i < |members| ==>
            r.value[i] == Upsert("member", CompositeKey(guildId, Attr(members[i], "id")), members[i]))
  {
  }

  /** A role create/update stores the whole event data, keyed by the role id,
      with the guild id written into the role; a primitive role throws. */
  lemma RoleUpsertInjectsGuildId(e: Json, prior: Json, t: string)
    requires Prop(e, "type") == Success(Str(t)) && t in {"GUILD_ROLE_CREATE", "GUILD_ROLE_UPDATE"}
    requires Attr(e, "data").Obj?
    ensures var data := Attr(e, "data");
      var role := Attr(data, "role");
      Translate(e, prior) ==
        if !IsObject(role) then Failure(TypeError)
        else
          var role' := Assigned(role, "guild_id", Attr(data, "guild_id"));
          Success([Upsert("role", Attr(role', "id"), Obj(data.fields["role" := role']))])
    ensures var role := Attr(Attr(e, "data"), "role");
      Translate(e, prior).Success? && role.Obj? ==>
        Attr(Attr(Translate(e, prior).value[0].value, "role"), "guild_id") == Attr(Attr(e, "data"), "guild_id")
  {
  }

  /** A role delete yields one delete keyed by `data.role_id`; missing data throws. */
  lemma RoleDeleteIsOneRemove(e: Json, prior: Json)
    requires Prop(e, "type") == Success(Str("GUILD_ROLE_DELETE"))
    ensures var data := Attr(e, "data");
      Translate(e, prior) ==
        if IsNullish(data) then Failure(TypeError)
        else Success([Remove("role", Attr(data, "role_id"))])
  {
  }

  /** A presence update keeps only the id of its user and is keyed
      `guild_id + "_" + user.id`; missing data or a missing user throws. */
  lemma PresenceKeepsOnlyUserId(e: Json, prior: Json)
    requires Prop(e, "type") == Success(Str("PRESENCE_UPDATE"))
    ensures var data := Attr(e, "data");
      IsNullish(data) || IsNullish(Attr(data, "user")) ==> Translate(e, prior) == Failure(TypeError)
    ensures var data := Attr(e, "data");
      !IsNullish(data) && !IsNullish(Attr(data, "user")) ==>
      var userId := Attr(Attr(data, "user"), "id");
      var r := Translate(e, prior);
      && data.Obj?
      && r == Success([Upsert("presence", CompositeKey(Attr(data, "guild_id"), userId),
                              Obj(data.fields["user" := Obj(map["id" := userId])]))])
      && Attr(r.value[0].value, "user").fields.Keys == {"id"}
  {
  }

  /** The default cache level names every entity type under its plural. */
  lemma EntitiesHaveDefaultLevel()
    ensures forall x :: x in Entities ==> x + "s" in OwnFields(DefaultCacheLevel)
  {
    assert "channel" + "s" == "channels" && "guild" + "s" == "guilds" && "member" + "s" == "members";
    assert "role" + "s" == "roles" && "presence" + "s" == "presences" && "user" + "s" == "users";
  }

  // ---------------------------------------------------------------------------
  // Stores and committing (`__process`)

  /** The store behind a connector: the base class, whose store methods all
      throw, or the in-memory backend with its cache. */
  datatype Backend = Unimplemented | InMemory(cache: Cache)

  /** What the base class throws from `__get`, `__write` and `__delete`. */
  function NotImplemented(operation: string): JsError {
    NotImplementedError(operation + "() is not implemented for CacheConnector")
  }

  /** `__get(t, k)` */
  function StoreGet(b: Backend, t: string, k: Json): Result<Json, JsError> {
    match b
    case Unimplemented => Failure(NotImplemented("__get"))
    case InMemory(c) => Success(Lookup(c, t, k))
  }

  /** `__write` for an upsert, `__delete` for a delete. */
  function Apply(b: Backend, a: Action): Result<Backend, JsError> {
    match b
    case Unimplemented => Failure(NotImplemented(if a.Upsert? then "__write" else "__delete"))
    case InMemory(c) =>
      Success(InMemory(match a
        case Upsert(t, k, v) => AfterWrite(c, t, k, v)
        case Remove(t, k) => AfterDelete(c, t, k)))
  }

  /** The store after committing, and whether the commit completed or threw. */
  datatype CommitResult = CommitResult(backend: Backend, outcome: Outcome<JsError>)

  /** The commit loop of `__process`: skip an action whose type the level
      excludes, write or delete the others in order, stop at the first error. */
  function CommitAll(level: Json, b: Backend, actions: seq<Action>): (r: CommitResult)
    ensures IsNullish(level) && actions != [] ==> r == CommitResult(b, Fail(TypeError))
    ensures b.Unimplemented? ==> r.backend == Unimplemented
    ensures b.InMemory? && !IsNullish(level) ==> r.outcome == Pass && r.backend.InMemory?
    ensures r.outcome.Fail? ==> r.outcome.error == TypeError || r.outcome.error.NotImplementedError?
    decreases |actions|
  {
    if actions == [] then CommitResult(b, Pass)
    else match Includes(level, actions[0].entity)
      case Failure(err) => CommitResult(b, Fail(err))
      case Success(included) =>
        if !included then CommitAll(level, b, actions[1..])
        else match Apply(b, actions[0])
          case Failure(err) => CommitResult(b, Fail(err))
          case Success(b') => CommitAll(level, b', actions[1..])
  }

  /** Reference definition: the actions whose type the level includes, in order. */
  function Included(level: Json, actions: seq<Action>): (r: seq<Action>)
    ensures forall a :: a in r ==> a in actions && Truthy(Attr(level, a.entity + "s"))
    ensures forall a :: a in actions && Truthy(Attr(level, a.entity + "s")) ==> a in r
  {
    if actions == [] then []
    else
      (if Truthy(Attr(level, actions[0].entity + "s")) then [actions[0]] else [])
        + Included(level, actions[1..])
  }

  /** Reference definition: apply every action in order, stop at the first error. */
  function ApplyAll(b: Backend, actions: seq<Action>): CommitResult
    decreases |actions|
  {
    if actions == [] then CommitResult(b, Pass)
    else match Apply(b, actions[0])
      case Failure(err) => CommitResult(b, Fail(err))
      case Success(b') => ApplyAll(b', actions[1..])
  }

  /** The in-memory cache after applying the actions one after the other. */
  function Replay(c: Cache, actions: seq<Action>): Cache
    decreases |actions|
  {
    if actions == [] then c
    else
      var c' := match actions[0]
        case Upsert(t, k, v) => AfterWrite(c, t, k, v)
        case Remove(t, k) => AfterDelete(c, t, k);
      Replay(c', actions[1..])
  }

  /** With a non-null cache level, committing is filtering by the level and
      then applying what is left, in order. */
  lemma {:induction false} CommitIsFilterThenApply(level: Json, b: Backend, actions: seq<Action>)
    requires !IsNullish(level)
    ensures CommitAll(level, b, actions) == ApplyAll(b, Included(level, actions))
    decreases |actions|
  {
    if actions != [] {
      var a := actions[0];
      var rest := Included(level, actions[1..]);
      if Truthy(Attr(level, a.entity + "s")) {
        assert Included(level, actions) == [a] + rest;
        assert ([a] + rest)[1..] == rest;
        match Apply(b, a)
        case Failure(_) =>
        case Success(b') => CommitIsFilterThenApply(level, b', actions[1..]);
      } else {
        assert Included(level, actions) == rest;
        CommitIsFilterThenApply(level, b, actions[1..]);
      }
    }
  }

  /** The in-memory backend never fails: applying actions replays them on the cache. */
  lemma {:induction false} ApplyAllInMemory(c: Cache, actions: seq<Action>)
    ensures ApplyAll(InMemory(c), actions) == CommitResult(InMemory(Replay(c, actions)), Pass)
    decreases |actions|
  {
    if actions != [] {
      match actions[0]
      case Upsert(t, k, v) => ApplyAllInMemory(AfterWrite(c, t, k, v), actions[1..]);
      case Remove(t, k) => ApplyAllInMemory(AfterDelete(c, t, k), actions[1..]);
    }
  }

  /** The base class commits nothing: it completes exactly when the level
      excludes every action, and otherwise throws NotImplementedError from
      `__write` or `__delete` of the first included action. */
  lemma {:induction false} UnimplementedStoreCommitsNothing(level: Json, actions: seq<Action>)
    requires !IsNullish(level)
    ensures CommitAll(level, Unimplemented, actions).backend == Unimplemented
    ensures var inc := Included(level, actions);
      CommitAll(level, Unimplemented, actions).outcome ==
        if inc == [] then Pass
        else Fail(NotImplemented(if inc[0].Upsert? then "__write" else "__delete"))
  {
    CommitIsFilterThenApply(level, Unimplemented, actions);
  }

  /** Commits of consecutive action lists compose: the second list is
      committed only when the first completed, on the store it left. */
  lemma {:induction false} CommitAllAppend(level: Json, b: Backend, xs: seq<Action>, ys: seq<Action>)
    ensures CommitAll(level, b, xs + ys) ==
      var first := CommitAll(level, b, xs);
      if first.outcome.Fail? then first else CommitAll(level, first.backend, ys)
    decreases |xs|
  {
    if xs == [] {
      assert xs + ys == ys;
    } else {
      assert (xs + ys)[0] == xs[0];
      assert (xs + ys)[1..] == xs[1..] + ys;
      match Includes(level, xs[0].entity)
      case Failure(_) =>
      case Success(included) =>
        if !included {
          CommitAllAppend(level, b, xs[1..], ys);
        } else {
          match Apply(b, xs[0])
          case Failure(_) =>
          case Success(b') => CommitAllAppend(level, b', xs[1..], ys);
        }
    }
  }

  /** The first action of a commit step: excluded, committed, or failing. */
  predicate StepFails(level: Json, b: Backend, a: Action) {
    match Includes(level, a.entity)
    case Failure(_) => true
    case Success(included) => included && Apply(b, a).Failure?
  }

  /** A failed commit leaves the store as a completed commit of a prefix of the
      actions left it, and the action right after that prefix is the one that
      failed: nothing after it was attempted. */
  lemma {:induction false} FailedCommitStopsAfterPrefix(level: Json, b: Backend, actions: seq<Action>)
    requires CommitAll(level, b, actions).outcome.Fail?
    ensures exists i :: (0 <= i < |actions| &&
      CommitAll(level, b, actions[..i]) == CommitResult(CommitAll(level, b, actions).backend, Pass) &&
      StepFails(level, CommitAll(level, b, actions).backend, actions[i]))
    decreases |actions|, 1
  {
    var final := CommitAll(level, b, actions);
    var a := actions[0];
    var rest := actions[1..];
    assert actions[..0] == [];
    match Includes(level, a.entity)
    case Failure(_) =>
      assert StepFails(level, final.backend, actions[0]);
    case Success(included) =>
      if !included {
        PrefixAfterSkipped(level, b, actions, final);
      } else {
        match Apply(b, a)
        case Failure(_) =>
          assert StepFails(level, final.backend, actions[0]);
        case Success(_) =>
          // an applied action means an in-memory store, whose commits all pass
          assert false;
      }
  }

  /** The inductive step of FailedCommitStopsAfterPrefix: the level excluded
      the first action, so the failure lies further on. (An applied first
      action needs no such step: it means an in-memory store, where a commit
      cannot fail.) */
  lemma {:induction false} PrefixAfterSkipped(level: Json, b: Backend, actions: seq<Action>, final: CommitResult)
    requires actions != []
    requires final == CommitAll(level, b, actions) && final.outcome.Fail?
    requires Includes(level, actions[0].entity) == Success(false)
    ensures exists i :: (0 <= i < |actions| &&
      CommitAll(level, b, actions[..i]) == CommitResult(final.backend, Pass) &&
      StepFails(level, final.backend, actions[i]))
    decreases |actions|, 0
  {
    var a := actions[0];
    var rest := actions[1..];
    FailedCommitStopsAfterPrefix(level, b, rest);
    var j :| 0 <= j < |rest| &&
      CommitAll(level, b, rest[..j]) == CommitResult(final.backend, Pass) &&
      StepFails(level, final.backend, rest[j]);
    var prefix := actions[..j + 1];
    assert prefix[0] == a && prefix[1..] == rest[..j];
    assert CommitAll(level, b, prefix) == CommitAll(level, b, rest[..j]);
    assert actions[j + 1] == rest[j];
  }

  /** What the store lookup of `__parseEvent` yields for GUILD_MEMBER_UPDATE:
      the stored member, or null when the lookup threw. */
  function PriorMember(b: Backend, e: Json): (r: Json)
    ensures b.Unimplemented? || Prop(e, "type") != Success(Str("GUILD_MEMBER_UPDATE")) ==> r == Null
    ensures var data := Attr(e, "data");
      (&& b.InMemory? && Prop(e, "type") == Success(Str("GUILD_MEMBER_UPDATE"))
       && !IsNullish(data) && !IsNullish(Attr(data, "user")))
      ==> r == Lookup(b.cache, "member", CompositeKey(Attr(data, "guild_id"), Attr(Attr(data, "user"), "id")))
    ensures r == Null || Truthy(r)
  {
    if Prop(e, "type") != Success(Str("GUILD_MEMBER_UPDATE")) then Null
    else match Prop(e, "data")
      case Failure(_) => Null
      case Success(data) =>
        match MemberUpdateKey(data)
        case Failure(_) => Null
        case Success(key) =>
          match StoreGet(b, "member", key)
          case Failure(_) => Null
          case Success(v) => v
  }

  /** `__process(e)`: translate the event against the current store, then commit. */
  function ProcessEvent(level: Json, b: Backend, e: Json): (r: CommitResult)
    ensures Translate(e, PriorMember(b, e)).Failure? ==> r == CommitResult(b, Fail(TypeError))
    ensures b.InMemory? && !IsNullish(level) ==>
      r.backend.InMemory? && (r.outcome.Pass? <==> Translate(e, PriorMember(b, e)).Success?)
    ensures b.Unimplemented? ==> r.backend == Unimplemented
    ensures r.outcome.Fail? ==> r.outcome.error == TypeError || r.outcome.error.NotImplementedError?
  {
    match Translate(e, PriorMember(b, e))
    case Failure(err) => CommitResult(b, Fail(err))
    case Success(actions) => CommitAll(level, b, actions)
  }

  /** The connector: a cache level and, for `MemoryCacheConnector`, its store.
      A null store stands for the base class, whose store methods throw. */
  class Connector {
    const cacheLevel: Json
    const store: MemoryStore?

    constructor (cacheLevelArgument: Json, store: MemoryStore?)
      ensures cacheLevel == SelectCacheLevel(cacheLevelArgument)
      ensures this.store == store
    {
      cacheLevel := SelectCacheLevel(cacheLevelArgument);
      this.store := store;
    }

    /** The store as a value. */
    function State(): Backend
      reads store
    {
      if store == null then Unimplemented else InMemory(store.cache)
    }

    /** `__get(type, key)` */
    method Get(t: string, k: Json) returns (r: Result<Json, JsError>)
      ensures r == StoreGet(State(), t, k)
    {
      if store == null {
        return Failure(NotImplemented("__get"));
      }
      var v := store.Get(t, k);
      r := Success(v);
    }

    /** `__write(type, key, value)` for an upsert, `__delete(type, key)` for a delete. */
    method Commit(a: Action) returns (r: Outcome<JsError>)
      modifies store
      ensures match Apply(old(State()), a)
        case Failure(err) => r == Fail(err) && State() == old(State())
        case Success(b) => r == Pass && State() == b
    {
      if store == null {
        return Fail(NotImplemented(if a.Upsert? then "__write" else "__delete"));
      }
      match a {
        case Upsert(t, k, v) => store.Write(t, k, v);
        case Remove(t, k) => store.Delete(t, k);
      }
      r := Pass;
    }

    /** `__parseEvent(e)`: reads the store for GUILD_MEMBER_UPDATE only, and
        treats a lookup that throws like a missing member. */
    method ParseEvent(e: Json) returns (r: Result<seq<Action>, JsError>)
      ensures r == Translate(e, PriorMember(State(), e))
    {
      var prior := Null;
      if Prop(e, "type") == Success(Str("GUILD_MEMBER_UPDATE")) {
        var data := Prop(e, "data");
        if data.Success? {
          var key := MemberUpdateKey(data.value);
          if key.Success? {
            var found := Get("member", key.value);
            if found.Success? {
              prior := found.value;
            }
          }
        }
      }
      r := Translate(e, prior);
    }

    /** `__process(e)` */
    method Process(e: Json) returns (r: Outcome<JsError>)
      modifies store
      ensures CommitResult(State(), r) == ProcessEvent(cacheLevel, old(State()), e)
    {
      var parsed := ParseEvent(e);
      if parsed.Failure? {
        return Fail(parsed.error);
      }
      var actions := parsed.value;
      ghost var goal := CommitAll(cacheLevel, State(), actions);
      assert goal == ProcessEvent(cacheLevel, old(State()), e);
      assert actions[0..] == actions;
      var i := 0;
      while i < |actions|
        invariant 0 <= i <= |actions|
        invariant goal == CommitAll(cacheLevel, State(), actions[i..])
      {
        var a := actions[i];
        assert actions[i..][1..] == actions[i + 1..];
        var included := Includes(cacheLevel, a.entity);
        if included.Failure? {
          return Fail(included.error);
        }
        if included.value {
          var done := Commit(a);
          if done.Fail? {
            return done;
          }
        }
        i := i + 1;
      }
      r := Pass;
    }
  }

  // ---------------------------------------------------------------------------
  // The behaviours the cache promises its readers, on concrete events

  /** Committing an event with no actions, or of an unhandled type, changes nothing. */
  lemma UnhandledEventCommitsNothing(level: Json, b: Backend, e: Json)
    requires !IsNullish(e)
    requires !(Attr(e, "type").Str? && Attr(e, "type").s in HandledTypes)
    ensures ProcessEvent(level, b, e) == CommitResult(b, Pass)
  {
    UnhandledTypeYieldsNoActions(e, PriorMember(b, e));
  }

  function Event(t: string, data: Json): Json {
    Obj(map["type" := Str(t), "data" := data])
  }

  /** An event that translates to a single included action commits exactly that action. */
  lemma ProcessSingleAction(level: Json, b: Backend, e: Json, a: Action, b': Backend)
    requires Translate(e, PriorMember(b, e)) == Success([a])
    requires Includes(level, a.entity) == Success(true)
    requires Apply(b, a) == Success(b')
    ensures ProcessEvent(level, b, e) == CommitResult(b', Pass)
  {
    assert [a][1..] == [];
    assert CommitAll(level, b', []) == CommitResult(b', Pass);
    assert CommitAll(level, b, [a]) == CommitAll(level, b', [a][1..]);
  }

  /** A GUILD_CREATE that the level includes reads back from the in-memory
      cache; the GUILD_DELETE of the same id then reads back as null, and
      leaves every other entry as it was before the create. */
  lemma GuildCreateThenDelete(level: Json, c: Cache, guild: Json)
    requires !IsNullish(level) && Truthy(Attr(level, "guilds"))
    requires guild.Obj?
    ensures var id := Attr(guild, "id");
      var created := ProcessEvent(level, InMemory(c), Event("GUILD_CREATE", guild));
      var deleted := ProcessEvent(level, created.backend, Event("GUILD_DELETE", Obj(map["id" := id])));
      && created.outcome == Pass && created.backend.InMemory?
      && Lookup(created.backend.cache, "guild", id) == guild
      && deleted.outcome == Pass && deleted.backend.InMemory?
      && Lookup(deleted.backend.cache, "guild", id) == Null
      && forall t, k :: (t, k) != ("guild", id) ==> Lookup(deleted.backend.cache, t, k) == Lookup(c, t, k)
  {
    var id := Attr(guild, "id");
    var create := Event("GUILD_CREATE", guild);
    var delete := Event("GUILD_DELETE", Obj(map["id" := id]));
    assert Includes(level, "guild") == Success(true) by {
      assert "guild" + "s" == "guilds";
    }
    CreateOrUpdateIsOneUpsert(create, PriorMember(InMemory(c), create), "GUILD_CREATE");
    var c1 := AfterWrite(c, "guild", id, guild);
    ProcessSingleAction(level, InMemory(c), create, Upsert("guild", id, guild), InMemory(c1));
    ReadAfterWrite(c, "guild", id, guild, "guild", id);
    DeleteIsOneRemove(delete, PriorMember(InMemory(c1), delete), "GUILD_DELETE");
    var c2 := AfterDelete(c1, "guild", id);
    ProcessSingleAction(level, InMemory(c1), delete, Remove("guild", id), InMemory(c2));
    ReadAfterDelete(c1, "guild", id, "guild", id);
    forall t, k | (t, k) != ("guild", id)
      ensures Lookup(c2, t, k) == Lookup(c, t, k)
    {
      ReadAfterDelete(c1, "guild", id, t, k);
      ReadAfterWrite(c, "guild", id, guild, t, k);
    }
  }

  /** When the level includes every action, filtering keeps them all. */
  lemma {:induction false} IncludedKeepsAll(level: Json, actions: seq<Action>)
    requires forall a :: a in actions ==> Truthy(Attr(level, a.entity + "s"))
    ensures Included(level, actions) == actions
    decreases |actions|
  {
    if actions != [] {
      IncludedKeepsAll(level, actions[1..]);
      assert [actions[0]] + actions[1..] == actions;
    }
  }

  /** When the level excludes every action, filtering keeps none. */
  lemma {:induction false} IncludedDropsAll(level: Json, actions: seq<Action>)
    requires forall a :: a in actions ==> !Truthy(Attr(level, a.entity + "s"))
    ensures Included(level, actions) == []
    decreases |actions|
  {
    if actions != [] {
      IncludedDropsAll(level, actions[1..]);
    }
  }

  /** An event whose every action the level excludes leaves the store untouched. */
  lemma ExcludedActionsCommitNothing(level: Json, b: Backend, e: Json, actions: seq<Action>)
    requires !IsNullish(level)
    requires Translate(e, PriorMember(b, e)) == Success(actions)
    requires forall a :: a in actions ==> !Truthy(Attr(level, a.entity + "s"))
    ensures ProcessEvent(level, b, e) == CommitResult(b, Pass)
  {
    CommitIsFilterThenApply(level, b, actions);
    IncludedDropsAll(level, actions);
  }

  /** Replaying actions none of which touches `(t, k)` leaves its reading unchanged. */
  lemma {:induction false} ReplayFrame(c: Cache, actions: seq<Action>, t: string, k: Json)
    requires forall a :: a in actions ==> (a.entity, a.key) != (t, k)
    ensures Lookup(Replay(c, actions), t, k) == Lookup(c, t, k)
    decreases |actions|
  {
    if actions != [] {
      assert actions[0] in actions;
      match actions[0]
      case Upsert(t', k', v) =>
        ReadAfterWrite(c, t', k', v, t, k);
        ReplayFrame(AfterWrite(c, t', k', v), actions[1..], t, k);
      case Remove(t', k') =>
        ReadAfterDelete(c, t', k', t, k);
        ReplayFrame(AfterDelete(c, t', k'), actions[1..], t, k);
    }
  }

  /** Replaying upserts of truthy values under distinct keys makes each one
      read back as its value. */
  lemma {:induction false} ReplayUpsertsReadBack(c: Cache, actions: seq<Action>, i: nat)
    requires i < |actions|
    requires forall j :: 0 <= j < |actions| ==> actions[j].Upsert? && Truthy(actions[j].value)
    requires forall j, j' :: 0 <= j < j' < |actions| ==>
      (actions[j].entity, actions[j].key) != (actions[j'].entity, actions[j'].key)
    ensures Lookup(Replay(c, actions), actions[i].entity, actions[i].key) == actions[i].value
    decreases |actions|
  {
    var a := actions[0];
    var c' := AfterWrite(c, a.entity, a.key, a.value);
    assert Replay(c, actions) == Replay(c', actions[1..]);
    if i == 0 {
      forall x | x in actions[1..]
        ensures (x.entity, x.key) != (a.entity, a.key)
      {
        var j' :| 0 <= j' < |actions[1..]| && actions[1..][j'] == x;
        assert x == actions[j' + 1];
      }
      ReplayFrame(c', actions[1..], a.entity, a.key);
      ReadAfterWrite(c, a.entity, a.key, a.value, a.entity, a.key);
    } else {
      ReplayUpsertsReadBack(c', actions[1..], i - 1);
    }
  }

  /** A members chunk that the level includes caches every member under
      `guild_id + "_" + id`, when those keys are distinct and the members truthy. */
  lemma MembersChunkCachesEveryMember(level: Json, c: Cache, e: Json, members: seq<Json>)
    requires !IsNullish(level) && Truthy(Attr(level, "members"))
    requires Prop(e, "type") == Success(Str("GUILD_MEMBERS_CHUNK"))
    requires Attr(Attr(e, "data"), "members") == Arr(members)
    requires forall i :: 0 <= i < |members| ==> Truthy(members[i])
    requires var g := Attr(Attr(e, "data"), "guild_id");
      forall i, j :: 0 <= i < j < |members| ==>
        CompositeKey(g, Attr(members[i], "id")) != CompositeKey(g, Attr(members[j], "id"))
    ensures var done := ProcessEvent(level, InMemory(c), e);
      var g := Attr(Attr(e, "data"), "guild_id");
      && done.outcome == Pass && done.backend.InMemory?
      && forall i :: 0 <= i < |members| ==>
        Lookup(done.backend.cache, "member", CompositeKey(g, Attr(members[i], "id"))) == members[i]
  {
    var g := Attr(Attr(e, "data"), "guild_id");
    var prior := PriorMember(InMemory(c), e);
    MembersChunkOneUpsertPerMember(e, prior, members);
    var actions := Translate(e, prior).value;
    assert forall j :: 0 <= j < |actions| ==>
      actions[j] == Upsert("member", CompositeKey(g, Attr(members[j], "id")), members[j]);
    assert Truthy(Attr(level, "member" + "s")) by {
      assert "member" + "s" == "members";
    }
    CommitIncludedInMemory(level, c, actions);
    forall i | 0 <= i < |members|
      ensures Lookup(Replay(c, actions), "member", CompositeKey(g, Attr(members[i], "id"))) == members[i]
    {
      ReplayUpsertsReadBack(c, actions, i);
    }
  }

  /** With the level including every action, the in-memory store replays them all. */
  lemma CommitIncludedInMemory(level: Json, c: Cache, actions: seq<Action>)
    requires !IsNullish(level)
    requires forall a :: a in actions ==> Truthy(Attr(level, a.entity + "s"))
    ensures CommitAll(level, InMemory(c), actions) == CommitResult(InMemory(Replay(c, actions)), Pass)
  {
    IncludedKeepsAll(level, actions);
    CommitIsFilterThenApply(level, InMemory(c), actions);
    ApplyAllInMemory(c, actions);
  }

  /** A member update whose lookup finds nothing, or throws as in the base
      class, stores the epoch `joined_at` and `deaf`/`mute` false. */
  lemma MemberUpdateWithoutStoredMember(b: Backend, e: Json)
    requires Prop(e, "type") == Success(Str("GUILD_MEMBER_UPDATE"))
    requires !IsNullish(Attr(e, "data")) && !IsNullish(Attr(Attr(e, "data"), "user"))
    requires var data := Attr(e, "data");
      b.Unimplemented? ||
      Lookup(b.cache, "member", CompositeKey(Attr(data, "guild_id"), Attr(Attr(data, "user"), "id"))) == Null
    ensures var r := Translate(e, PriorMember(b, e));
      && r.Success? && |r.value| == 1
      && Attr(r.value[0].value, "joined_at") == Str(EpochJoinedAt)
      && Attr(r.value[0].value, "deaf") == Bool(false)
      && Attr(r.value[0].value, "mute") == Bool(false)
  {
    assert PriorMember(b, e) == Null;
    MemberUpdateRebuildsMember(e, Null);
    UpdatedMemberFields(Attr(e, "data"), Null);
  }

  // ---------------------------------------------------------------------------
  // Member keys

  /** A `guild_user` key never equals the bare id it is built from. */
  lemma CompositeKeyIsNotAnId(guildId: Json, id: Json)
    ensures CompositeKey(guildId, id) != id
  {
    if id.Str? {
      assert |CompositeKey(guildId, id).s| > |id.s|;
    }
  }

  /** GUILD_MEMBER_ADD keys the member by the guild id alone, so a second
      member added to the same guild replaces the first. */
  lemma MemberAddsInOneGuildOverwrite(level: Json, c: Cache, first: Json, second: Json)
    requires !IsNullish(level) && Truthy(Attr(level, "members"))
    requires first.Obj? && second.Obj? && Attr(first, "guild_id") == Attr(second, "guild_id")
    ensures var guildId := Attr(first, "guild_id");
      var added := ProcessEvent(level, InMemory(c), Event("GUILD_MEMBER_ADD", first));
      var again := ProcessEvent(level, added.backend, Event("GUILD_MEMBER_ADD", second));
      && added.outcome == Pass && added.backend.InMemory?
      && Lookup(added.backend.cache, "member", guildId) == first
      && again.outcome == Pass && again.backend.InMemory?
      && Lookup(again.backend.cache, "member", guildId) == second
  {
    var g := Attr(first, "guild_id");
    var e1 := Event("GUILD_MEMBER_ADD", first);
    var e2 := Event("GUILD_MEMBER_ADD", second);
    assert Includes(level, "member") == Success(true) by {
      assert "member" + "s" == "members";
    }
    MemberAddAndRemoveKeys(e1, PriorMember(InMemory(c), e1));
    var c1 := AfterWrite(c, "member", g, first);
    ProcessSingleAction(level, InMemory(c), e1, Upsert("member", g, first), InMemory(c1));
    ReadAfterWrite(c, "member", g, first, "member", g);
    MemberAddAndRemoveKeys(e2, PriorMember(InMemory(c1), e2));
    var c2 := AfterWrite(c1, "member", g, second);
    ProcessSingleAction(level, InMemory(c1), e2, Upsert("member", g, second), InMemory(c2));
    ReadAfterWrite(c1, "member", g, second, "member", g);
  }

  /** GUILD_MEMBER_REMOVE deletes the key `user.id`, so it never removes the
      `guild_user` entry that GUILD_MEMBER_UPDATE wrote for the same member. */
  lemma MemberRemoveKeepsUpdatedMember(level: Json, c: Cache, data: Json)
    requires !IsNullish(level) && Truthy(Attr(level, "members"))
    requires data.Obj? && !IsNullish(Attr(data, "user"))
    ensures var update := Event("GUILD_MEMBER_UPDATE", data);
      var key := CompositeKey(Attr(data, "guild_id"), Attr(Attr(data, "user"), "id"));
      var updated := ProcessEvent(level, InMemory(c), update);
      var removed := ProcessEvent(level, updated.backend, Event("GUILD_MEMBER_REMOVE", data));
      && updated.outcome == Pass && removed.outcome == Pass && removed.backend.InMemory?
      && Lookup(removed.backend.cache, "member", key) == UpdatedMember(data, PriorMember(InMemory(c), update))
  {
    var update := Event("GUILD_MEMBER_UPDATE", data);
    var remove := Event("GUILD_MEMBER_REMOVE", data);
    var userId := Attr(Attr(data, "user"), "id");
    var key := CompositeKey(Attr(data, "guild_id"), userId);
    var member := UpdatedMember(data, PriorMember(InMemory(c), update));
    assert Includes(level, "member") == Success(true) by {
      assert "member" + "s" == "members";
    }
    MemberUpdateRebuildsMember(update, PriorMember(InMemory(c), update));
    var c1 := AfterWrite(c, "member", key, member);
    ProcessSingleAction(level, InMemory(c), update, Upsert("member", key, member), InMemory(c1));
    assert ProcessEvent(level, InMemory(c), update) == CommitResult(InMemory(c1), Pass);
    MemberAddAndRemoveKeys(remove, PriorMember(InMemory(c1), remove));
    var c2 := AfterDelete(c1, "member", userId);
    ProcessSingleAction(level, InMemory(c1), remove, Remove("member", userId), InMemory(c2));
    assert ProcessEvent(level, InMemory(c1), remove) == CommitResult(InMemory(c2), Pass);
    CompositeKeyIsNotAnId(Attr(data, "guild_id"), userId);
    ReadAfterDelete(c1, "member", userId, "member", key);
    ReadAfterWrite(c, "member", key, member, "member", key);
    assert Lookup(c2, "member", key) == member;
  }
}

=== FILE: discord_rest_client.dfy ===
/**
 * The input side of the REST client (`src/lib/DiscordRestClient.js`): the
 * constructor's checks, the `endpoint` setter's normalisation of the parsed
 * URL, the path each request is sent to, the validation, defaulting and
 * payload of `createMessage`, and the check of the response it gets back.
 *
 * `url.parse` is a parameter; sending the request and reading the response
 * are not modelled, so `createMessage` ends with the request it would send
 * and `CheckResponse` starts from the status and the parsed body.
 */
module DiscordRestClient {
  import opened Wrappers
  import opened Js

  const DefaultEndpoint := "https://discordapp.com/api"

  /** The fields of `url.parse(s)` the client uses. */
  datatype ParsedUrl = ParsedUrl(protocol: Option<string>, hostname: Json, port: Json, pathname: Option<string>)

  /** `_endpointParsed`: the parsed endpoint with `secure` added and the pathname normalised. */
  datatype Endpoint = Endpoint(secure: bool, hostname: Json, port: Json, pathname: string)

  // ---------------------------------------------------------------------------
  // The endpoint

  /** A one-character pathname becomes empty; otherwise one trailing `/` is dropped. */
  function NormalisePathname(p: string): (r: string)
    ensures |p| == 1 ==> r == ""
    ensures |p| != 1 && p != [] && p[|p| - 1] == '/' ==> r + "/" == p
    ensures |p| != 1 && (p == [] || p[|p| - 1] != '/') ==> r == p
  {
    if |p| == 1 then ""
    else if p != [] && p[|p| - 1] == '/' then p[..|p| - 1]
    else p
  }

  /** The result is a prefix of the pathname at most one character shorter,
      and it ends in `/` only when the pathname ended in `//`. */
  lemma {:induction false} NormalisePathnameDropsOneSlash(p: string)
    ensures var r := NormalisePathname(p);
      && r <= p && |p| - 1 <= |r|
      && (r != [] && r[|r| - 1] == '/' ==> |p| >= 2 && p[|p| - 2..] == "//")
  {
    var r := NormalisePathname(p);
    if |p| != 1 && p != [] && p[|p| - 1] == '/' {
      assert r == p[..|p| - 1];
      if r != [] && r[|r| - 1] == '/' {
        assert p[|p| - 2..] == [p[|p| - 2], p[|p| - 1]];
      }
    }
  }

  /** An endpoint given with or without its trailing slash sends every request
      to the same path, so the route is never preceded by a doubled `/`. */
  lemma TrailingSlashDoesNotChangePaths(x: string, route: string)
    requires x == [] || (|x| >= 2 && x[|x| - 1] != '/')
    ensures NormalisePathname(x + "/") + route == NormalisePathname(x) + route == x + route
  {
    assert (x + "/")[..|x + "/"| - 1] == x;
  }

  /** The setter after `this._endpoint = value`: `url.parse` rejects a
      non-string, and a missing pathname makes `.length` throw. */
  function ParseEndpoint(value: Json, urlParse: string -> ParsedUrl): (r: Result<Endpoint, JsError>)
    ensures r.Failure? <==> !value.Str? || urlParse(value.s).pathname.None?
    ensures r.Failure? ==> r.error == TypeError
    ensures r.Success? ==> var u := urlParse(value.s);
      && r.value.secure == (u.protocol == Some("https:"))
      && r.value.hostname == u.hostname && r.value.port == u.port
      && r.value.pathname == NormalisePathname(u.pathname.value)
  {
    if !value.Str? then Failure(TypeError)
    else
      var u := urlParse(value.s);
      if u.pathname.None? then Failure(TypeError)
      else Success(Endpoint(u.protocol == Some("https:"), u.hostname, u.port, NormalisePathname(u.pathname.value)))
  }

  // ---------------------------------------------------------------------------
  // Construction

  /** The destructured constructor argument. */
  datatype ClientOptions = ClientOptions(token: Json, endpoint: Json, enableRatelimits: Json)

  datatype ClientSettings = ClientSettings(token: string, endpoint: Json, parsed: Endpoint, enableRatelimits: bool)

  const TokenNotString := "token is not a string"

  /** The constructor: the token must be a string, a non-string endpoint is
      replaced by the default, and rate limiting is on only when asked for. */
  function CheckClientOptions(o: ClientOptions, urlParse: string -> ParsedUrl): (r: Result<ClientSettings, JsError>)
    ensures !o.token.Str? ==> r == Failure(Error(TokenNotString))
    ensures var endpoint := if o.endpoint.Str? then o.endpoint else Str(DefaultEndpoint);
      o.token.Str? ==>
        match ParseEndpoint(endpoint, urlParse)
        case Failure(e) => r == Failure(e)
        case Success(p) => r == Success(ClientSettings(o.token.s, endpoint, p, Truthy(o.enableRatelimits)))
  {
    if !o.token.Str? then Failure(Error(TokenNotString))
    else
      var endpoint := if o.endpoint.Str? then o.endpoint else Str(DefaultEndpoint);
      var parsed :- ParseEndpoint(endpoint, urlParse);
      Success(ClientSettings(o.token.s, endpoint, parsed, Truthy(o.enableRatelimits)))
  }

  /** Leaving out the endpoint selects the default one, and rate limiting stays off. */
  lemma OmittedClientOptionsDefaults(token: string, urlParse: string -> ParsedUrl)
    requires urlParse(DefaultEndpoint).pathname.Some?
    ensures var r := CheckClientOptions(ClientOptions(Str(token), Undefined, Undefined), urlParse);
      && r.Success? && r.value.endpoint == Str(DefaultEndpoint) && !r.value.enableRatelimits
      && r.value.parsed.secure == (urlParse(DefaultEndpoint).protocol == Some("https:"))
  {
  }

  // ---------------------------------------------------------------------------
  // createMessage

  const ChannelIdNotString := "channelID must be a string"
  const ContentNotObject := "content must be a string or an object"
  const NothingToSend := "at least one property on content is required"

  /** Where the bytes of an attached file come from. */
  datatype FileSource = ReadStream(path: string) | Given(value: Json)

  datatype Upload = Upload(source: FileSource, filename: string, contentType: Json)

  /** The request `createMessage` sends: multipart when it carries a file, JSON otherwise. */
  datatype MessageRequest = MessageRequest(
    authorization: string,
    path: string,
    payload: map<string, Json>,
    file: Option<Upload>)

  /** A string `content` stands for `{content}`. */
  function Wrap(content: Json): Json {
    if content.Str? then Obj(map["content" := content]) else content
  }

  /** The message text: a string as is, undefined as empty, anything else stringified. */
  function TextOf(message: Json): (r: string)
    ensures Attr(message, "content").Str? ==> r == Attr(message, "content").s
    ensures Attr(message, "content") == Undefined ==> r == ""
    ensures !Attr(message, "content").Str? && Attr(message, "content") != Undefined ==>
      r == ToStr(Attr(message, "content"))
  {
    var v := Attr(message, "content");
    if v.Str? then v.s else if v.Undefined? then "" else ToStr(v)
  }

  /** The embed: kept when it is an object, null otherwise. */
  function EmbedOf(message: Json): (r: Json)
    ensures r == Null || (IsObject(r) && r == Attr(message, "embed"))
    ensures IsObject(Attr(message, "embed")) ==> r == Attr(message, "embed")
  {
    var v := Attr(message, "embed");
    if IsObject(v) then v else Null
  }

  /** The attached file, when `content.file` is an object; its name defaults to `upload`. */
  function UploadOf(message: Json): (r: Option<Upload>)
    ensures r.Some? <==> IsObject(Attr(message, "file"))
    ensures r.Some? ==> var f := Attr(message, "file");
      && r.value.filename != ""
      && (Attr(f, "filename").Str? && Attr(f, "filename").s != "" ==> r.value.filename == Attr(f, "filename").s)
      && (!Attr(f, "filename").Str? || Attr(f, "filename").s == "" ==> r.value.filename == "upload")
      && (Attr(f, "file").Str? ==> r.value.source == ReadStream(Attr(f, "file").s))
      && (!Attr(f, "file").Str? ==> r.value.source == Given(Attr(f, "file")))
      && r.value.contentType == Attr(f, "contentType")
  {
    var f := Attr(message, "file");
    if !IsObject(f) then None
    else
      var source := if Attr(f, "file").Str? then ReadStream(Attr(f, "file").s) else Given(Attr(f, "file"));
      var name := Attr(f, "filename");
      Some(Upload(source, if name.Str? && name.s != "" then name.s else "upload", Attr(f, "contentType")))
  }

  /** There is something to send: text, an embed or a file. */
  predicate HasBody(message: Json) {
    TextOf(message) != "" || EmbedOf(message) != Null || UploadOf(message).Some?
  }

  /** A plain string message sends that string as its text, with no embed and no file. */
  lemma StringContentIsText(s: string)
    ensures TextOf(Wrap(Str(s))) == s && EmbedOf(Wrap(Str(s))) == Null && UploadOf(Wrap(Str(s))).None?
    ensures HasBody(Wrap(Str(s))) <==> s != ""
  {
  }

  /** A number as text is sent as its decimal digits, undefined as nothing. */
  lemma NonStringTextIsStringified(message: Json, n: int)
    ensures Attr(message, "content") == Num(n) ==> TextOf(message) == IntToDecimal(n)
    ensures Attr(message, "content") == Null ==> TextOf(message) == "null"
  {
  }

  /** The text a message carries once `content.content` has been coerced to a string. */
  method NormaliseText(message: Json) returns (text: Json)
    ensures text == Str(TextOf(message))
  {
    text := Attr(message, "content");
    if !text.Str? {
      if text.Undefined? {
        text := Str("");
      }
      text := Str(ToStr(text));
    }
  }

  /** `content.file` once checked: null unless it is an object, whose file
      path becomes a read stream and whose missing name becomes `upload`. */
  method NormaliseFile(message: Json) returns (file: Option<Upload>)
    ensures file == UploadOf(message)
  {
    var f := Attr(message, "file");
    if !IsObject(f) {
      return None;
    }
    var source := Given(Attr(f, "file"));
    if Attr(f, "file").Str? {
      source := ReadStream(Attr(f, "file").s);
    }
    var filename := Attr(f, "filename");
    if !filename.Str? || filename.s == "" {
      filename := Str("upload");
    }
    file := Some(Upload(source, filename.s, Attr(f, "contentType")));
  }

  /** The JSON payload: the text when non-empty, the embed when not null,
      `tts: true` when asked for, and nothing else. */
  method BuildPayload(text: Json, embed: Json, tts: bool) returns (payload: map<string, Json>)
    ensures payload.Keys <= {"content", "embed", "tts"}
    ensures "content" in payload <==> Truthy(text)
    ensures "content" in payload ==> payload["content"] == text
    ensures "embed" in payload <==> Truthy(embed)
    ensures "embed" in payload ==> payload["embed"] == embed
    ensures "tts" in payload <==> tts
    ensures "tts" in payload ==> payload["tts"] == Bool(true)
  {
    payload := map[];
    if Truthy(text) {
      payload := payload["content" := text];
    }
    if Truthy(embed) {
      payload := payload["embed" := embed];
    }
    if tts {
      payload := payload["tts" := Bool(true)];
    }
  }

  // ---------------------------------------------------------------------------
  // The response

  const StatusPrefix := "API returned unexpected status code "

  /** The error thrown for a status other than 200, given the parsed body. */
  function StatusError(status: int, body: Json): (r: JsError)
    requires IsObject(body)
    ensures r.Error? && StatusPrefix + IntToDecimal(status) + "(expected 200) with " <= r.message
    ensures "code" in OwnFields(body) && "message" in OwnFields(body) ==>
      r.message == StatusPrefix + IntToDecimal(status) + "(expected 200) with error: \"" +
        ToStr(OwnFields(body)["code"]) + ": " + ToStr(OwnFields(body)["message"]) + "\""
    ensures !("code" in OwnFields(body) && "message" in OwnFields(body)) ==>
      r.message == StatusPrefix + IntToDecimal(status) + "(expected 200) with no error object"
  {
    var fields := OwnFields(body);
    if "code" in fields && "message" in fields then
      Error(StatusPrefix + IntToDecimal(status) + "(expected 200) with error: \"" +
        ToStr(fields["code"]) + ": " + ToStr(fields["message"]) + "\"")
    else
      Error(StatusPrefix + IntToDecimal(status) + "(expected 200) with no error object")
  }

  /** The end of `createMessage`: an unparseable body throws first, a 200
      resolves with the body, any other status throws; `in` on a primitive
      body throws a TypeError instead. */
  function CheckResponse(status: int, body: Option<Json>): (r: Result<Json, JsError>)
    ensures r.Success? <==> body.Some? && status == 200
    ensures r.Success? ==> r.value == body.value
    ensures body.None? ==> r == Failure(SyntaxError)
    ensures body.Some? && status != 200 && !IsObject(body.value) ==> r == Failure(TypeError)
    ensures body.Some? && status != 200 && IsObject(body.value) ==> r == Failure(StatusError(status, body.value))
  {
    match body
    case None => Failure(SyntaxError)
    case Some(b) =>
      if status == 200 then Success(b)
      else if !IsObject(b) then Failure(TypeError)
      else Failure(StatusError(status, b))
  }

  // ---------------------------------------------------------------------------
  // The client

  class RestClient {
    /** `_token` */
    const token: string
    /** `_endpoint`: the last value given to the setter, whether or not it parsed. */
    var endpoint: Json
    /** `_endpointParsed` */
    var endpointParsed: Endpoint
    /** `_enableRatelimits` */
    const enableRatelimits: bool

    constructor (s: ClientSettings)
      ensures token == s.token && endpoint == s.endpoint
      ensures endpointParsed == s.parsed && enableRatelimits == s.enableRatelimits
    {
      token := s.token;
      endpoint := s.endpoint;
      endpointParsed := s.parsed;
      enableRatelimits := s.enableRatelimits;
    }

    /** `new DiscordRestClient(options)` */
    static method Create(o: ClientOptions, urlParse: string -> ParsedUrl) returns (r: Result<RestClient, JsError>)
      ensures r.Failure? <==> CheckClientOptions(o, urlParse).Failure?
      ensures r.Failure? ==> r.error == CheckClientOptions(o, urlParse).error
      ensures r.Success? ==> fresh(r.value)
      ensures r.Success? ==>
        CheckClientOptions(o, urlParse).value ==
          ClientSettings(r.value.token, r.value.endpoint, r.value.endpointParsed, r.value.enableRatelimits)
    {
      var s := CheckClientOptions(o, urlParse);
      if s.Failure? {
        return Failure(s.error);
      }
      var client := new RestClient(s.value);
      return Success(client);
    }

    /** The `endpoint` setter: the raw value is kept even when parsing it throws. */
    method SetEndpoint(value: Json, urlParse: string -> ParsedUrl) returns (r: Outcome<JsError>)
      modifies this
      ensures endpoint == value
      ensures match ParseEndpoint(value, urlParse)
        case Success(p) => endpointParsed == p && r == Pass
        case Failure(e) => endpointParsed == old(endpointParsed) && r == Fail(e)
    {
      endpoint := value;
      if !value.Str? {
        return Fail(TypeError);
      }
      var u := urlParse(value.s);
      if u.pathname.None? {
        return Fail(TypeError);
      }
      var pathname := u.pathname.value;
      if |pathname| == 1 {
        pathname := "";
      }
      if pathname != [] && pathname[|pathname| - 1] == '/' {
        pathname := pathname[..|pathname| - 1];
      }
      endpointParsed := Endpoint(u.protocol == Some("https:"), u.hostname, u.port, pathname);
      r := Pass;
    }

    /** `createMessage(channelID, content, options)` up to the request it sends. */
    method CreateMessage(channelID: Json, content: Json, options: Json) returns (r: Result<MessageRequest, JsError>)
      ensures !channelID.Str? ==> r == Failure(Error(ChannelIdNotString))
      ensures channelID.Str? && !IsObject(Wrap(content)) ==> r == Failure(Error(ContentNotObject))
      ensures channelID.Str? && IsObject(Wrap(content)) && !HasBody(Wrap(content)) ==>
        r == Failure(Error(NothingToSend))
      ensures r.Success? <==> channelID.Str? && IsObject(Wrap(content)) && HasBody(Wrap(content))
      ensures r.Success? ==> var message := Wrap(content);
        && r.value.authorization == token
        && r.value.path == endpointParsed.pathname + "/channels/" + channelID.s + "/messages"
        && r.value.file == UploadOf(message)
        && r.value.payload.Keys <= {"content", "embed", "tts"}
        && ("content" in r.value.payload <==> TextOf(message) != "")
        && ("content" in r.value.payload ==> r.value.payload["content"] == Str(TextOf(message)))
        && ("embed" in r.value.payload <==> EmbedOf(message) != Null)
        && ("embed" in r.value.payload ==> r.value.payload["embed"] == EmbedOf(message))
        && ("tts" in r.value.payload <==> Truthy(Attr(options, "tts")))
        && ("tts" in r.value.payload ==> r.value.payload["tts"] == Bool(true))
    {
      if !channelID.Str? {
        return Failure(Error(ChannelIdNotString));
      }
      var route := "/channels/" + channelID.s + "/messages";
      var message := content;
      if message.Str? {
        message := Obj(map["content" := message]);
      }
      assert message == Wrap(content);
      if !IsObject(message) {
        return Failure(Error(ContentNotObject));
      }
      var opts := options;
      if !IsObject(opts) {
        opts := Obj(map[]);
      }

      var text := NormaliseText(message);
      var embed := Attr(message, "embed");
      if !IsObject(embed) {
        embed := Null;
      }
      var file := NormaliseFile(message);
      var tts := Truthy(Attr(opts, "tts"));

      if !(Truthy(text) || Truthy(embed) || file.Some?) {
        return Failure(Error(NothingToSend));
      }
      var payload := BuildPayload(text, embed, tts);
      r := Success(MessageRequest(token, endpointParsed.pathname + route, payload, file));
    }
  }
}

=== FILE: js.dfy ===
/**
 * The slice of JavaScript value semantics that the worker framework relies on:
 * documents, truthiness, `typeof x === 'object'`, property reads and writes
 * under strict mode, string conversion, and the error objects it throws.
 */
module Js {
  import opened Wrappers

  /** A JavaScript value as the framework sees it: a parsed JSON document,
      or `undefined`. Numbers are integers. */
  datatype Json =
    | Undefined
    | Null
    | Bool(b: bool)
    | Num(n: int)
    | Str(s: string)
    | Arr(items: seq<Json>)
    | Obj(fields: map<string, Json>)

  /** The errors the core throws or rejects with. */
  datatype JsError =
    | TypeError                               // raised by the engine (property of null/undefined, ...)
    | SyntaxError                             // raised by JSON.parse
    | Error(message: string)                  // `new Error(message)`
    | NotImplementedError(message: string)
    | OptionsError(key: string, detail: string)

  predicate Truthy(v: Json) {
    match v
    case Undefined => false
    case Null => false
    case Bool(b) => b
    case Num(n) => n != 0
    case Str(s) => s != ""
    case Arr(_) => true
    case Obj(_) => true
  }

  predicate IsNullish(v: Json) {
    v.Undefined? || v.Null?
  }

  /** `typeof v === 'object' && v !== null` */
  predicate IsObject(v: Json) {
    v.Arr? || v.Obj?
  }

  /** The named properties a value carries; arrays carry none in this model. */
  function OwnFields(v: Json): map<string, Json> {
    if v.Obj? then v.fields else map[]
  }

  /** The value of a named property of a map-like record, `undefined` when absent. */
  function Field(m: map<string, Json>, name: string): Json {
    if name in m then m[name] else Undefined
  }

  /** `v[name]` for a `v` known not to be null or undefined. */
  function Attr(v: Json, name: string): Json {
    Field(OwnFields(v), name)
  }

  /** `v[name]`: throws on null and undefined, reads own fields otherwise. */
  function Prop(v: Json, name: string): (r: Result<Json, JsError>)
    ensures r.Failure? <==> IsNullish(v)
    ensures r.Failure? ==> r.error == TypeError
    ensures r.Success? ==> r.value == Attr(v, name)
    ensures r.Success? && !v.Obj? ==> r.value == Undefined
  {
    if IsNullish(v) then Failure(TypeError) else Success(Attr(v, name))
  }

  /** `v[name] = x` in strict mode (class bodies are strict): an object gains or
      replaces the property, a primitive throws. A named property set on an
      array is not represented. */
  function SetProp(v: Json, name: string, x: Json): (r: Result<Json, JsError>)
    ensures r.Failure? <==> !IsObject(v)
    ensures r.Failure? ==> r.error == TypeError
    ensures r.Success? ==> Attr(r.value, name) == (if v.Obj? then x else Undefined)
    ensures r.Success? ==> forall n :: n != name ==> Attr(r.value, n) == Attr(v, n)
  {
    if IsObject(v) then Success(Assigned(v, name, x)) else Failure(TypeError)
  }

  /** The object `v` once `v[name] = x` has completed. */
  function Assigned(v: Json, name: string, x: Json): Json {
    if v.Obj? then Obj(v.fields[name := x]) else v
  }

  function DigitChar(d: nat): char
    requires d < 10
  {
    "0123456789"[d]
  }

  function NatToDecimal(n: nat): (r: string)
    ensures |r| >= 1
    decreases n
  {
    if n < 10 then [DigitChar(n)] else NatToDecimal(n / 10) + [DigitChar(n % 10)]
  }

  function IntToDecimal(n: int): string {
    if n < 0 then "-" + NatToDecimal(-n) else NatToDecimal(n)
  }

  function JoinWithCommas(parts: seq<string>): string {
    if |parts| == 0 then ""
    else if |parts| == 1 then parts[0]
    else parts[0] + "," + JoinWithCommas(parts[1..])
  }

  /** `` `${v}` `` and `v + ''`: the string conversion of a value. */
  function ToStr(v: Json): string
    decreases v
  {
    match v
    case Undefined => "undefined"
    case Null => "null"
    case Bool(b) => if b then "true" else "false"
    case Num(n) => IntToDecimal(n)
    case Str(s) => s
    case Arr(items) =>
      // Array.prototype.join renders null and undefined elements as ""
      JoinWithCommas(seq(|items|, i requires 0 <= i < |items| =>
        if IsNullish(items[i]) then "" else ToStr(items[i])))
    case Obj(_) => "[object Object]"
  }

  /** The `message` property of a thrown error; an `OptionsError` reads
      `bad option "<key>": <detail>`. */
  function Message(e: JsError): string {
    match e
    case TypeError => "TypeError"
    case SyntaxError => "SyntaxError"
    case Error(m) => m
    case NotImplementedError(m) => m
    case OptionsError(key, detail) => "bad option \"" + key + "\": " + detail
  }
}

=== FILE: legacy_worker.dfy ===
/**
 * The older worker (`lib/Worker.js`): the same option checks reported as
 * `OptionsError`s, start and stop that reject instead of throwing, and a
 * receive path that never calls the pre-process hook it stores.
 */
module LegacyWorker {
  import opened Wrappers
  import opened Js
  import opened MessageBrokerConsumer
  import W = Worker

  /** The constructor's checks, each failure an `OptionsError(key, detail)`. */
  function CheckOptions(o: W.Options): (r: Result<W.Settings, JsError>)
    ensures !o.messageBrokerConsumer.Instance? ==>
      r == Failure(OptionsError("messageBrokerConsumer", "not instance of MessageBrokerConsumer"))
    ensures o.messageBrokerConsumer.Instance? && Truthy(o.ignoredEvents) && !o.ignoredEvents.Arr? ==>
      r == Failure(OptionsError("ignoredEvents", "not an array"))
    ensures
      (&& o.messageBrokerConsumer.Instance?
       && !(Truthy(o.ignoredEvents) && !o.ignoredEvents.Arr?)
       && W.HookGiven(o.preEventProcessHook) && !o.preEventProcessHook.Function?)
      ==> r == Failure(OptionsError("preEventProcessHook", "not a function"))
    ensures r.Failure? ==> r.error.OptionsError?
  {
    if !o.messageBrokerConsumer.Instance? then
      Failure(OptionsError("messageBrokerConsumer", "not instance of MessageBrokerConsumer"))
    else if Truthy(o.ignoredEvents) && !o.ignoredEvents.Arr? then
      Failure(OptionsError("ignoredEvents", "not an array"))
    else if W.HookGiven(o.preEventProcessHook) && !o.preEventProcessHook.Function? then
      Failure(OptionsError("preEventProcessHook", "not a function"))
    else
      var hook := if o.preEventProcessHook.Function? then Some(o.preEventProcessHook.f) else None;
      var ignored := if o.ignoredEvents.Arr? then o.ignoredEvents.items else [];
      Success(W.Settings(o.messageBrokerConsumer.consumer, ignored, hook, Truthy(o.verifyData)))
  }

  // The message of each rejection, `bad option "<key>": <detail>`, written in
  // the pieces the message is assembled from.

  lemma ConsumerOptionMessage(o: W.Options)
    requires !o.messageBrokerConsumer.Instance?
    ensures CheckOptions(o).Failure?
    ensures Message(CheckOptions(o).error) ==
      "bad option \"" + "messageBrokerConsumer" + "\": " + "not instance of MessageBrokerConsumer"
  {
  }

  lemma IgnoredEventsOptionMessage(o: W.Options)
    requires o.messageBrokerConsumer.Instance? && Truthy(o.ignoredEvents) && !o.ignoredEvents.Arr?
    ensures CheckOptions(o).Failure?
    ensures Message(CheckOptions(o).error) == "bad option \"" + "ignoredEvents" + "\": " + "not an array"
  {
  }

  lemma HookOptionMessage(o: W.Options)
    requires o.messageBrokerConsumer.Instance? && !(Truthy(o.ignoredEvents) && !o.ignoredEvents.Arr?)
    requires W.HookGiven(o.preEventProcessHook) && !o.preEventProcessHook.Function?
    ensures CheckOptions(o).Failure?
    ensures Message(CheckOptions(o).error) == "bad option \"" + "preEventProcessHook" + "\": " + "not a function"
  {
  }

  /** Both workers accept the same options and assign the same fields; they
      differ only in the error thrown, whose message names the rejected key
      in the older one. */
  lemma SameOptionsAsWorker(o: W.Options)
    ensures CheckOptions(o).Success? <==> W.CheckOptions(o).Success?
    ensures CheckOptions(o).Success? ==> CheckOptions(o) == W.CheckOptions(o)
    ensures CheckOptions(o).Failure? ==>
      W.CheckOptions(o).error == Error(
        if CheckOptions(o).error.key == "messageBrokerConsumer" then W.NotAConsumer
        else if CheckOptions(o).error.key == "ignoredEvents" then W.IgnoredNotArray
        else W.HookNotFunction)
  {
  }

  /** `__receiveEvent(data)`: the hook plays no part. */
  function Receive(ignored: seq<Json>, data: Json): (r: W.Reception)
    ensures r.outcome.Fail? <==> IsNullish(data)
    ensures r.outcome.Fail? ==> r.outcome.error == TypeError
    ensures r.emissions ==
      [W.Emission(W.RecvChannel, data)] +
      (if IsNullish(data) || Attr(data, "type") in ignored then [] else W.Dispatch(data))
  {
    var recv := [W.Emission(W.RecvChannel, data)];
    if IsNullish(data) then W.Reception(recv, Fail(TypeError))
    else if Attr(data, "type") in ignored then W.Reception(recv, Pass)
    else W.Reception(recv + W.Dispatch(data), Pass)
  }

  /** The older worker receives exactly as the newer one does without a hook. */
  lemma ReceiveIsWorkerWithoutHook(ignored: seq<Json>, data: Json)
    ensures Receive(ignored, data) == W.Receive(ignored, None, data)
  {
  }

  class Worker {
    const consumer: Consumer
    const ignoredEvents: seq<Json>
    /** Validated and kept, but never called. */
    const hook: Option<Json -> Json>
    const verifyData: bool
    var emitted: seq<W.Emission>

    constructor (s: W.Settings)
      ensures consumer == s.consumer && ignoredEvents == s.ignoredEvents
      ensures hook == s.hook && verifyData == s.verifyData
      ensures emitted == []
    {
      consumer := s.consumer;
      ignoredEvents := s.ignoredEvents;
      hook := s.hook;
      verifyData := s.verifyData;
      emitted := [];
    }

    /** `new Worker(options)` */
    static method Create(o: W.Options) returns (r: Result<Worker, JsError>)
      ensures r.Failure? <==> CheckOptions(o).Failure?
      ensures r.Failure? ==> r.error == CheckOptions(o).error
      ensures r.Success? ==> fresh(r.value) && r.value.emitted == []
      ensures r.Success? ==>
        CheckOptions(o).value == W.Settings(r.value.consumer, r.value.ignoredEvents, r.value.hook, r.value.verifyData)
    {
      var s := CheckOptions(o);
      if s.Failure? {
        return Failure(s.error);
      }
      var w := new Worker(s.value);
      return Success(w);
    }

    /** `consuming`: whether the consumer is active. */
    function Consuming(): (r: bool)
      reads consumer
      ensures r <==> consumer.active
    {
      consumer.active
    }

    /** `startConsuming()`: rejects when the consumer is active, otherwise
        settles as the consumer's own `start()` does. */
    method StartConsuming(started: Outcome<JsError>) returns (r: Outcome<JsError>)
      ensures Consuming() ==> r == Fail(Error(W.AlreadyActive))
      ensures !Consuming() ==> r == started
    {
      if consumer.active {
        return Fail(Error(W.AlreadyActive));
      }
      r := started;
    }

    /** `stopConsuming()`: rejects when the consumer is inactive, otherwise
        settles as the consumer's own `stop()` does. */
    method StopConsuming(stopped: Outcome<JsError>) returns (r: Outcome<JsError>)
      ensures !Consuming() ==> r == Fail(Error(W.NotActive))
      ensures Consuming() ==> r == stopped
    {
      if !consumer.active {
        return Fail(Error(W.NotActive));
      }
      r := stopped;
    }

    method Emit(channel: string, payload: Json)
      modifies this
      ensures emitted == old(emitted) + [W.Emission(channel, payload)]
    {
      emitted := emitted + [W.Emission(channel, payload)];
    }

    /** `__receiveEvent(data)` */
    method ReceiveEvent(data: Json) returns (r: Outcome<JsError>)
      modifies this
      ensures emitted == old(emitted) + Receive(ignoredEvents, data).emissions
      ensures r == Receive(ignoredEvents, data).outcome
    {
      Emit(W.RecvChannel, data);
      if IsNullish(data) {
        return Fail(TypeError);
      }
      if Attr(data, "type") in ignoredEvents {
        return Pass;
      }
      Emit(W.DispatchChannel, data);
      Emit(W.DiscordChannel(data), data);
      r := Pass;
    }
  }
}

=== FILE: memory_cache_connector.dfy ===
/**
 * The in-memory backend: a two-level map from entity type to a map from key
 * to the stored document. `get` answers null for a missing type, a missing key
 * or a stored falsy value; `write` creates the per-type map on demand;
 * `delete` on an unknown type does nothing.
 */
module MemoryCacheConnector {
  import opened Js

  /** `_cache`: entity type -> (key -> value). */
  type Cache = map<string, map<Json, Json>>

  /** What `__get(t, k)` resolves with: the stored value when it is truthy, null otherwise. */
  function Lookup(c: Cache, t: string, k: Json): (r: Json)
    ensures t !in c ==> r == Null
    ensures r != Null ==> t in c && k in c[t] && r == c[t][k] && Truthy(r)
    ensures t in c && k in c[t] && Truthy(c[t][k]) ==> r == c[t][k]
  {
    if t !in c then Null
    else if k in c[t] && Truthy(c[t][k]) then c[t][k]
    else Null
  }

  /** The cache after `__write(t, k, v)`. */
  function AfterWrite(c: Cache, t: string, k: Json, v: Json): (r: Cache)
    ensures r.Keys == c.Keys + {t}
    ensures k in r[t] && r[t][k] == v
    ensures r[t].Keys == (if t in c then c[t].Keys else {}) + {k}
    ensures forall k' :: k' in r[t] && k' != k ==> r[t][k'] == c[t][k']
    ensures forall t' :: t' in c && t' != t ==> r[t'] == c[t']
  {
    var entries := if t in c then c[t] else map[];
    c[t := entries[k := v]]
  }

  /** The cache after `__delete(t, k)`. */
  function AfterDelete(c: Cache, t: string, k: Json): (r: Cache)
    ensures r.Keys == c.Keys
    ensures t in c ==> r[t].Keys == c[t].Keys - {k}
    ensures t in c ==> forall k' :: k' in r[t] ==> r[t][k'] == c[t][k']
    ensures forall t' :: t' in c && t' != t ==> r[t'] == c[t']
  {
    if t !in c then c else c[t := c[t] - {k}]
  }

  /** Every (type, key) other than the written one reads back as before, and the
      written one reads back as the value when it is truthy, as null otherwise. */
  lemma ReadAfterWrite(c: Cache, t: string, k: Json, v: Json, t': string, k': Json)
    ensures Lookup(AfterWrite(c, t, k, v), t', k') ==
      if t' == t && k' == k then (if Truthy(v) then v else Null) else Lookup(c, t', k')
  {
  }

  /** Writing the same entry twice leaves the same cache as writing it once. */
  lemma WriteIdempotent(c: Cache, t: string, k: Json, v: Json)
    ensures AfterWrite(AfterWrite(c, t, k, v), t, k, v) == AfterWrite(c, t, k, v)
  {
    var once := AfterWrite(c, t, k, v);
    assert once[t][k := v] == once[t];
  }

  /** A deleted entry reads back as null and every other (type, key) as before. */
  lemma ReadAfterDelete(c: Cache, t: string, k: Json, t': string, k': Json)
    ensures Lookup(AfterDelete(c, t, k), t', k') ==
      if t' == t && k' == k then Null else Lookup(c, t', k')
  {
  }

  /** Deleting under a type that has no map changes nothing. */
  lemma DeleteUnknownType(c: Cache, t: string, k: Json)
    requires t !in c
    ensures AfterDelete(c, t, k) == c
  {
  }

  /** `MemoryCacheConnector`'s storage, `_cache`, and its three store operations. */
  class MemoryStore {
    var cache: Cache

    constructor ()
      ensures cache == map[]
    {
      cache := map[];
    }

    /** `__get(type, key)` */
    method Get(t: string, k: Json) returns (v: Json)
      ensures t !in cache ==> v == Null
      ensures t in cache && k in cache[t] && Truthy(cache[t][k]) ==> v == cache[t][k]
      ensures t in cache && (k !in cache[t] || !Truthy(cache[t][k])) ==> v == Null
    {
      if t !in cache {
        return Null;
      }
      var entries := cache[t];
      v := if k in entries && Truthy(entries[k]) then entries[k] else Null;
    }

    /** `__write(type, key, value)` */
    method Write(t: string, k: Json, v: Json)
      modifies this
      ensures cache == AfterWrite(old(cache), t, k, v)
    {
      if t !in cache {
        cache := cache[t := map[]];
      }
      cache := cache[t := cache[t][k := v]];
    }

    /** `__delete(type, key)` */
    method Delete(t: string, k: Json)
      modifies this
      ensures cache == AfterDelete(old(cache), t, k)
    {
      if t !in cache {
        return;
      }
      cache := cache[t := cache[t] - {k}];
    }
  }
}

=== FILE: message_broker_consumer.dfy ===
/**
 * The message broker consumer as a worker sees it. The abstract class only
 * rejects `start()` and `stop()`; what a concrete broker does when it starts
 * or stops is outside this model, so the worker is handed the outcome of
 * that call. The one piece of state the worker reads is `active`.
 */
module MessageBrokerConsumer {

  class Consumer {
    /** Whether the consumer is connected and receiving messages. */
    var active: bool

    constructor (active: bool)
      ensures this.active == active
    {
      this.active := active;
    }
  }
}

=== FILE: worker.dfy ===
/**
 * The worker (`src/lib/Worker.js`): it validates its options, guards
 * starting and stopping on the consumer's `active` flag, and turns each
 * message the consumer delivers into emissions on its event channels.
 *
 * Listeners are not modelled; an emission is recorded in `emitted` as the
 * pair of its channel name and payload, in the order the worker makes them.
 * The pre-process hook is a function from the event to the value its promise
 * resolves with, and its continuation runs at once.
 */
module Worker {
  import opened Wrappers
  import opened Js
  import opened MessageBrokerConsumer

  /** One `emit(channel, payload)` call. */
  datatype Emission = Emission(channel: string, payload: Json)

  /** What one delivery of a message emits, and whether it then throws. */
  datatype Reception = Reception(emissions: seq<Emission>, outcome: Outcome<JsError>)

  const RecvChannel := "event:recv"
  const DispatchChannel := "event:dispatch"

  /** `` `discord:${data.type}` `` */
  function DiscordChannel(data: Json): string {
    "discord:" + ToStr(Attr(data, "type"))
  }

  /** The two emissions that hand an event to listeners. */
  function Dispatch(data: Json): seq<Emission> {
    [Emission(DispatchChannel, data), Emission(DiscordChannel(data), data)]
  }

  // ---------------------------------------------------------------------------
  // Options

  /** `options.messageBrokerConsumer`: an instance of the consumer class, or any other value. */
  datatype ConsumerOption = Instance(consumer: Consumer) | NotConsumer(value: Json)

  /** `options.preEventProcessHook`: a function, or any other value. */
  datatype HookOption = Function(f: Json -> Json) | NotFunction(value: Json)

  datatype Options = Options(
    messageBrokerConsumer: ConsumerOption,
    ignoredEvents: Json,
    preEventProcessHook: HookOption,
    verifyData: Json)

  /** The fields a successfully constructed worker holds. */
  datatype Settings = Settings(
    consumer: Consumer,
    ignoredEvents: seq<Json>,
    hook: Option<Json -> Json>,
    verifyData: bool)

  const NotAConsumer := "messageBrokerConsumer is not an instance of MessageBrokerConsumer"
  const IgnoredNotArray := "ignoredEvents is not an array"
  const HookNotFunction := "preEventProcessHook is not a function"

  /** A function is always truthy. */
  predicate HookGiven(h: HookOption) {
    h.Function? || Truthy(h.value)
  }

  /** The constructor's checks, in order, and the fields it then assigns. */
  function CheckOptions(o: Options): (r: Result<Settings, JsError>)
    ensures !o.messageBrokerConsumer.Instance? ==> r == Failure(Error(NotAConsumer))
    ensures o.messageBrokerConsumer.Instance? && Truthy(o.ignoredEvents) && !o.ignoredEvents.Arr? ==>
      r == Failure(Error(IgnoredNotArray))
    ensures
      (&& o.messageBrokerConsumer.Instance?
       && !(Truthy(o.ignoredEvents) && !o.ignoredEvents.Arr?)
       && HookGiven(o.preEventProcessHook) && !o.preEventProcessHook.Function?)
      ==> r == Failure(Error(HookNotFunction))
    ensures r.Success? <==>
      && o.messageBrokerConsumer.Instance?
      && (Truthy(o.ignoredEvents) ==> o.ignoredEvents.Arr?)
      && (HookGiven(o.preEventProcessHook) ==> o.preEventProcessHook.Function?)
    ensures r.Success? ==>
      && r.value.consumer == o.messageBrokerConsumer.consumer
      && r.value.ignoredEvents == (if o.ignoredEvents.Arr? then o.ignoredEvents.items else [])
      && r.value.hook == (if o.preEventProcessHook.Function? then Some(o.preEventProcessHook.f) else None)
      && r.value.verifyData == Truthy(o.verifyData)
  {
    if !o.messageBrokerConsumer.Instance? then Failure(Error(NotAConsumer))
    else
      var ignored :=
        if !Truthy(o.ignoredEvents) then Success([])
        else if !o.ignoredEvents.Arr? then Failure(Error(IgnoredNotArray))
        else Success(o.ignoredEvents.items);
      match ignored
      case Failure(e) => Failure(e)
      case Success(events) =>
        var hook := o.preEventProcessHook;
        if !HookGiven(hook) then
          Success(Settings(o.messageBrokerConsumer.consumer, events, None, Truthy(o.verifyData)))
        else if !hook.Function? then Failure(Error(HookNotFunction))
        else Success(Settings(o.messageBrokerConsumer.consumer, events, Some(hook.f), Truthy(o.verifyData)))
  }

  /** Leaving out `verifyData` leaves it false, and leaving out `ignoredEvents` ignores nothing. */
  lemma OmittedOptionsDefaults(c: Consumer)
    ensures var r := CheckOptions(Options(Instance(c), Undefined, NotFunction(Undefined), Undefined));
      r == Success(Settings(c, [], None, false))
  {
  }

  // ---------------------------------------------------------------------------
  // Receiving a message

  /** `__receiveEvent(data)`: `event:recv` first; reading `data.type` throws
      on null; an ignored type stops there; otherwise the event, or the hook's
      result when there is a hook and its result is truthy, is dispatched. */
  function Receive(ignored: seq<Json>, hook: Option<Json -> Json>, data: Json): (r: Reception)
    ensures |r.emissions| >= 1 && r.emissions[0] == Emission(RecvChannel, data)
    ensures r.outcome.Fail? <==> IsNullish(data)
    ensures r.outcome.Fail? ==> r.outcome.error == TypeError
    ensures IsNullish(data) || Attr(data, "type") in ignored ==> r.emissions == [Emission(RecvChannel, data)]
    ensures |r.emissions| == 1 || r.emissions == [Emission(RecvChannel, data)] + Dispatch(r.emissions[1].payload)
    ensures |r.emissions| > 1 ==> !IsNullish(data) && Attr(data, "type") !in ignored
    ensures |r.emissions| > 1 && hook.None? ==> r.emissions[1].payload == data
    ensures |r.emissions| > 1 && hook.Some? ==> r.emissions[1].payload == hook.value(data)
    ensures |r.emissions| > 1 <==>
      !IsNullish(data) && Attr(data, "type") !in ignored && (hook.Some? ==> Truthy(hook.value(data)))
  {
    var recv := [Emission(RecvChannel, data)];
    if IsNullish(data) then Reception(recv, Fail(TypeError))
    else if Attr(data, "type") in ignored then Reception(recv, Pass)
    else match hook
      case Some(f) =>
        var transformed := f(data);
        if !Truthy(transformed) then Reception(recv, Pass)
        else Reception(recv + Dispatch(transformed), Pass)
      case None => Reception(recv + Dispatch(data), Pass)
  }

  /** The hook is not consulted for an ignored event. */
  lemma HookNotCalledForIgnored(ignored: seq<Json>, f: Json -> Json, g: Json -> Json, data: Json)
    requires !IsNullish(data) && Attr(data, "type") in ignored
    ensures Receive(ignored, Some(f), data) == Receive(ignored, Some(g), data) == Receive(ignored, None, data)
  {
  }

  /** A hook that hands back its argument behaves as no hook on truthy events;
      on the falsy ones (`false`, `0`, `""`) it drops an event that no hook would dispatch. */
  lemma IdentityHookIsNoHook(ignored: seq<Json>, data: Json)
    ensures Truthy(data) ==> Receive(ignored, Some(x => x), data) == Receive(ignored, None, data)
    ensures !IsNullish(data) && !Truthy(data) && Attr(data, "type") !in ignored ==>
      |Receive(ignored, Some(x => x), data).emissions| == 1 &&
      |Receive(ignored, None, data).emissions| == 3
  {
  }

  /** The channel of the second dispatch emission names the type of the
      payload dispatched, which is the hook's result when there is a hook. */
  lemma DiscordChannelFollowsHookResult(ignored: seq<Json>, f: Json -> Json, data: Json)
    requires !IsNullish(data) && Attr(data, "type") !in ignored && Truthy(f(data))
    ensures Receive(ignored, Some(f), data).emissions[2].channel == "discord:" + ToStr(Attr(f(data), "type"))
  {
  }

  // ---------------------------------------------------------------------------
  // The worker

  const AlreadyActive := "MessageBrokerConsumer is already active"
  const NotActive := "MessageBrokerConsumer is not active"

  class Worker {
    const consumer: Consumer
    const ignoredEvents: seq<Json>
    const hook: Option<Json -> Json>
    const verifyData: bool
    /** Every emission so far, oldest first. */
    var emitted: seq<Emission>

    constructor (s: Settings)
      ensures consumer == s.consumer && ignoredEvents == s.ignoredEvents
      ensures hook == s.hook && verifyData == s.verifyData
      ensures emitted == []
    {
      consumer := s.consumer;
      ignoredEvents := s.ignoredEvents;
      hook := s.hook;
      verifyData := s.verifyData;
      emitted := [];
    }

    /** `new Worker(options)`: the constructor throws before any field is set
        when an option is rejected. */
    static method Create(o: Options) returns (r: Result<Worker, JsError>)
      ensures r.Failure? <==> CheckOptions(o).Failure?
      ensures r.Failure? ==> r.error == CheckOptions(o).error
      ensures r.Success? ==> fresh(r.value) && r.value.emitted == []
      ensures r.Success? ==>
        CheckOptions(o).value == Settings(r.value.consumer, r.value.ignoredEvents, r.value.hook, r.value.verifyData)
    {
      var s := CheckOptions(o);
      if s.Failure? {
        return Failure(s.error);
      }
      var w := new Worker(s.value);
      return Success(w);
    }

    /** `consuming`: whether the consumer is active. */
    function Consuming(): (r: bool)
      reads consumer
      ensures r <==> consumer.active
    {
      consumer.active
    }

    /** `startConsuming()`, given what the consumer's own `start()` completes with. */
    method StartConsuming(started: Outcome<JsError>) returns (r: Outcome<JsError>)
      ensures Consuming() ==> r == Fail(Error(AlreadyActive))
      ensures !Consuming() ==> r == started
    {
      if consumer.active {
        return Fail(Error(AlreadyActive));
      }
      r := started;
    }

    /** `stopConsuming()`, given what the consumer's own `stop()` completes with. */
    method StopConsuming(stopped: Outcome<JsError>) returns (r: Outcome<JsError>)
      ensures !Consuming() ==> r == Fail(Error(NotActive))
      ensures Consuming() ==> r == stopped
    {
      if !consumer.active {
        return Fail(Error(NotActive));
      }
      r := stopped;
    }

    method Emit(channel: string, payload: Json)
      modifies this
      ensures emitted == old(emitted) + [Emission(channel, payload)]
    {
      emitted := emitted + [Emission(channel, payload)];
    }

    /** `__receiveEvent(data)` */
    method ReceiveEvent(data: Json) returns (r: Outcome<JsError>)
      modifies this
      ensures emitted == old(emitted) + Receive(ignoredEvents, hook, data).emissions
      ensures r == Receive(ignoredEvents, hook, data).outcome
    {
      Emit(RecvChannel, data);
      if IsNullish(data) {
        return Fail(TypeError);
      }
      if Attr(data, "type") in ignoredEvents {
        return Pass;
      }
      var event := data;
      if hook.Some? {
        event := hook.value(data);
        if !Truthy(event) {
          return Pass;
        }
      }
      Emit(DispatchChannel, event);
      Emit(DiscordChannel(event), event);
      r := Pass;
    }
  }
}

=== FILE: wrappers.dfy ===
/** Failure-compatible wrappers used for thrown exceptions and rejected promises. */
module Wrappers {

  datatype Option<+T> = None | Some(value: T)

  /** The value an operation completes with, or the error it throws. */
  datatype Result<+T, +E> = Success(value: T) | Failure(error: E) {
    predicate IsFailure() {
      Failure?
    }

    function PropagateFailure<U>(): Result<U, E>
      requires Failure?
    {
      Failure(error)
    }

    function Extract(): T
      requires Success?
    {
      value
    }
  }

  /** Completion of an operation that yields no value. */
  datatype Outcome<+E> = Pass | Fail(error: E)
}
